=== FILE: README.md ===
# fxer rate resolution, modelled in Dafny

This project models the rate-resolution engine of the Ruby gem `fxer`. The engine answers one question: how many units of a counter currency one unit of a base currency bought on a given day. It works in five steps:

- **Configuration.** The exchanger holds a source key checked against a closed list of valid keys, plus an unchecked store path and permissive flag. These can be set from constructor options, through a configuration block, or reset to the defaults.
- **Provider selection.** The source key is turned into a provider class name by `downcase.capitalize`. Here that name is looked up in an explicit registry of providers, whose only member is the European Central Bank provider.
- **Normalisation.** The ECB provider takes its feed from the store file when that file exists, and from the remote feed otherwise. It turns every feed day into a date record. A record holds one currency per feed item, with the rate text coerced to a number, followed by a synthesised euro at rate 1.
- **Date selection and pair lookup.** The rate set picks the first record whose date text equals the request's text.
  - With no match, it raises unless the set is permissive.
  - A permissive set falls back to the latest record of the whole set, not the nearest one.
  - It then finds the counter and the base currency in that record; either may be absent.
- **Quotient.** The answer is the counter rate divided by the base rate. A missing currency makes the conversion fail.

Ruby values are modelled by a small `RubyValue` datatype with these cases:
- nil
- booleans
- integers
- strings
- symbols
- dates

Ruby's truthiness and `"#{v}"` rendering are modelled as `Truthy` and `Render`. Every exception the code can raise is an `Error` case, returned through `Result`. Rates are exact reals.

The outside world is passed in as a parameter, `Ecb.World`. It holds:
- the feeds readable by path, already converted from XML
- the remote feed, if it can be fetched

The defaults and the valid-key list are another parameter, `Configuration.Settings`.

Where the gem's descriptions and its code differ, the model follows the code:
- The comment on `convert_at_date` (lib/fxer/exchange.rb:61-63) promises the closest available day. The code takes the latest day of the whole set (lib/fxer/exchange/data.rb:80); see `RateSets.PermissiveFallsBackToLatest`.
- The request date is never normalised. `convert_at_date` hands it to `at` as given, and the record is chosen by comparing texts. So the string `"2017-07-19"` finds the record of 19 July 2017, but `"2017-7-19"` finds nothing. See `RateSets.TextRequestNeedsPadding`.
- Records are told apart by their date text, not by their calendar date. For real days the two agree; see `Calendar.FormatInjective`.

## Model

| member | source | states |
|---|---|---|
| Calendar.Parse | lib/fxer/exchange/data_source/ecb.rb:37 | A text that strptime accepts with `%Y-%m-%d` names a real day of the calendar. |
| Calendar.ParseFormat | lib/fxer/exchange/data/date.rb:48 | Parsing the `to_s` text of a real day gives back that day. |
| Calendar.FormatParse | lib/fxer/exchange/data/date.rb:48 | A canonical zero-padded `YYYY-MM-DD` text that parses formats back to itself. |
| Calendar.FormatInjective | lib/fxer/exchange/data.rb:75 | Two real days with the same text are the same day, so matching by text is matching by day. |
| Calendar.OnOrBeforeTotal | lib/fxer/exchange/data.rb:80 | The date order used by `sort_by` is total and antisymmetric. |
| Calendar.PaddedText | lib/fxer/exchange/data.rb:75 | The text of 19 July 2017 is `2017-07-19`. |
| Calendar.ParseRuns | lib/fxer/exchange/data/date.rb:48 | A digit run, a dash, one or two digits, a dash and one or two digits parse to the day those runs denote, whenever that day exists. |
| Calendar.UnpaddedParse | lib/fxer/exchange/data/date.rb:48 | strptime also reads `2017-7-19` as 19 July 2017, although that is not the day's own text. |
| RubyValues.RenderIsoText | lib/fxer/exchange/data.rb:75 | A canonical date string renders exactly as the date it parses to, so both forms of request match the same records. |
| Currencies.ToF | lib/fxer/exchange/data/date/currency.rb:14 | Reading a number from text never fails. Text without digits reads as 0. Text not starting with `-` reads as a non-negative number. |
| Currencies.CoerceRate | lib/fxer/exchange/data/date/currency.rb:13-15 | `rate=` accepts any value; `nil`, which renders as the empty text, gives rate 0. |
| Currencies.CoerceIntegerRate | lib/fxer/exchange/data/date/currency.rb:14 | An integer rate is stored as that integer; in particular the euro's 1 is stored as 1. |
| Currencies.CoerceDecimalRate | lib/fxer/exchange/data/date/currency.rb:14 | A feed rate `<digits>.<k digits>` is stored as that exact decimal number. |
| DateRecords.NormalizeDate | lib/fxer/exchange/data/date.rb:45-52 | A non-String is returned unchanged. A String succeeds exactly when it parses, giving the parsed day, and otherwise fails with Ruby's invalid-date error, whose message names no text. |
| DateRecords.NormalizeIdempotent | lib/fxer/exchange/data/date.rb:46-51 | Normalising a normalised value changes nothing. |
| DateRecords.NormalizeIsoText | lib/fxer/exchange/data/date.rb:48 | A canonical `YYYY-MM-DD` text that normalises renders back as the same text. |
| DateRecords.AssignDate | lib/fxer/exchange/data/date.rb:19-29 | A new record starts with no currencies and holds the normalised date; a normalisation error propagates; a Date value is always accepted. |
| RateSets.NewRateSet | lib/fxer/exchange/data.rb:13-16 | A new rate set holds the given options and no days. Its transaction date, `from` and `to` are `nil`. |
| RateSets.At | lib/fxer/exchange/data.rb:45-48 | `at` sets the transaction date and nothing else. |
| RateSets.From | lib/fxer/exchange/data.rb:49-52 | `from` sets the base code and nothing else. |
| RateSets.To | lib/fxer/exchange/data.rb:53-56 | `to` sets the counter code and nothing else. |
| RateSets.FirstDateMatch | lib/fxer/exchange/data.rb:75 | `find` returns the position of the first record whose text equals the key, and returns nothing exactly when no record matches. |
| RateSets.LatestIndex | lib/fxer/exchange/data.rb:80 | The record chosen by `sort_by.reverse.first` has no later record in the set. |
| RateSets.NearestDate | lib/fxer/exchange/data.rb:74-81 | The result depends on whether a record matches and on the permissive flag. An exact match gives the first matching record, whatever the flag. Without a match, a non-permissive set raises `Unable to find your date: <date>`. Without a match, a permissive set gives no record when it is empty, and otherwise gives a record no other record is later than. |
| RateSets.FindCurrency | lib/fxer/exchange/data.rb:35-36 | The lookup gives the first currency whose key equals the code. It gives `nil` exactly when no currency has that key. |
| RateSets.DayCurrency | lib/fxer/exchange/data.rb:32-36 | A code is looked up in the selected record. Date-selection errors propagate, and a missing record fails on `nil.currencies`. The lookup succeeds exactly when a record is selected, and a found currency carries the code asked for. |
| RateSets.Rates | lib/fxer/exchange/data.rb:31-38 | `rates` is the pair (counter looked up by `to`, base looked up by `from`) from one selected record, or the selection error. |
| RateSets.DayIgnoresPair | lib/fxer/exchange/data.rb:74-81 | The selected record does not depend on the currency pair asked. |
| RateSets.FirstMatchSelected | lib/fxer/exchange/data.rb:75-76 | The first record matching the request is the record selected. |
| RateSets.ExactMatchIgnoresPermissive | lib/fxer/exchange/data.rb:75-76 | With an exact match the options, and so the permissive flag, play no part. |
| RateSets.MissSelectsLatest | lib/fxer/exchange/data.rb:78-80 | A permissive request that matches no record on a non-empty set selects the record `LatestIndex` picks, one with no later day. |
| RateSets.FallbackIgnoresRequest | lib/fxer/exchange/data.rb:78-80 | A permissive set answers every unmatched request with the same record. |
| RateSets.LatestUnique | lib/fxer/exchange/data.rb:80 | When no two records share a day, the latest record is unique. |
| RateSets.DateRequestMatchesItsDay | lib/fxer/exchange/data.rb:75 | A Date request matches a record exactly when the record is of that day. |
| RateSets.PermissiveFallsBackToLatest | lib/fxer/exchange/data.rb:78-80 | Given days 19 July, 21 July and 31 August 2017, a permissive request for 20 July gets 31 August. |
| RateSets.StrictMissRaises | lib/fxer/exchange/data.rb:78 | The same request on a non-permissive set raises the date-not-found error naming the date. |
| RateSets.TextRequestNeedsPadding | lib/fxer/exchange/data.rb:75 | The string `2017-07-19` matches the record of 19 July 2017; the string `2017-7-19` does not. |
| Ecb.EuropeanCurrency | lib/fxer/exchange/data_source/ecb.rb:58-63 | The synthesised euro has key `EUR` and rate exactly 1. |
| Ecb.ConvertEntry | lib/fxer/exchange/data_source/ecb.rb:36-45 | A feed day converts exactly when its time parses. The record then has that day, the day's items in order, and the euro last. Otherwise the conversion fails with the invalid-date error. |
| Ecb.ConvertEntries | lib/fxer/exchange/data_source/ecb.rb:35-48 | Conversion succeeds exactly when every day parses. It then gives one record per feed day, in feed order; otherwise it fails with the invalid-date error, and some day of the feed, the first unparsable one, stopped the loop. |
| Ecb.NormalizeRates | lib/fxer/exchange/data_source/ecb.rb:32-49 | The rate set keeps the given options and holds exactly one record per feed day, in feed order, each of that day. Nothing is chosen yet. |
| Ecb.NormalizedFirstMatch | lib/fxer/exchange/data_source/ecb.rb:37 | A Date request first matches the first feed day whose time parses to that date, and that record is the converted day. |
| Ecb.EveryDayEndsWithEuro | lib/fxer/exchange/data_source/ecb.rb:45 | Every record has one currency per feed item plus one. The last is `EUR` at rate 1. |
| Ecb.EuroAlwaysFound | lib/fxer/exchange/data_source/ecb.rb:45 | When a feed day lists no euro, looking up `EUR` in its record finds the synthesised euro. |
| Ecb.LocalData | lib/fxer/exchange/data_source/ecb.rb:89-93 | The stored feed is returned exactly when a store path is given and exists. With no store, or a path that does not exist, nothing is returned (`false`). It raises exactly when a truthy store is not a path. |
| Ecb.FetchRates | lib/fxer/exchange/data_source/ecb.rb:71-74 | Local data is used when it exists, and the remote feed otherwise. With neither available the fetch fails. |
| Ecb.Build | lib/fxer/exchange/data_source/ecb.rb:15-21 | The rate set gets the options minus `store`, so `permissive` arrives unchanged. Fetch errors propagate. Otherwise the build succeeds exactly when every fetched day parses, and the result is the normalised form of exactly the feed that was fetched. |
| DataSources.ProviderName | lib/fxer/exchange/data_source.rb:43 | The class name has the rendered key's length: the first character upper-cased, the rest lower-cased. |
| DataSources.ProviderNameIgnoresCase | lib/fxer/exchange/data_source.rb:43 | Any two keys that differ only in case, as symbols or one as a string, select the same provider. |
| DataSources.UpcasedKeySelectsSameProvider | lib/fxer/exchange/data_source.rb:43 | The upper-cased key selects the provider of the key itself. |
| DataSources.EcbKeyNamesEcb | lib/fxer/exchange/data_source.rb:43 | The keys `:ecb` and `:ECB` both name the class `Ecb`. |
| DataSources.Resolve | lib/fxer/exchange/data_source.rb:44 | Resolution succeeds exactly when the name is registered, giving the registered provider. An unknown name fails with an error naming it. |
| DataSources.FetchRates | lib/fxer/exchange/data_source.rb:42-45 | An unresolvable key fails. Otherwise the result is what the resolved provider builds from the data source's options, unchanged; for the ECB key that is the ECB build. The rate set holds the options minus `store`. |
| DataSources.Exchange | lib/fxer/exchange/data_source.rb:25-27 | `exchange` is `rates` of the provider's set with the date as transaction date, the base code as `from` and the counter code as `to`. |
| Configuration.NewConfig | lib/fxer/exchange/exchange_configuration.rb:37-41 | A fresh configuration holds the default source, store and permission. |
| Configuration.ValidateSourceKey | lib/fxer/exchange/exchange_configuration.rb:61-67 | A key is accepted exactly when it is one of the valid key symbols. Otherwise the error reads `Please provide one of these valid source keys: [<keys>].` |
| Configuration.SetSource | lib/fxer/exchange/exchange_configuration.rb:24-26 | `source =` succeeds exactly for a valid key. It stores exactly that key and changes nothing else. An invalid key raises. |
| Configuration.SetStore | lib/fxer/exchange/exchange_configuration.rb:7 | `store =` accepts any value and changes nothing else. |
| Configuration.SetPermissive | lib/fxer/exchange/exchange_configuration.rb:7 | `permissive =` accepts any value and changes nothing else. |
| Configuration.Apply | lib/fxer/exchange.rb:54-57 | A configuration block raises exactly when one of its source assignments is invalid, and then with the invalid-key message. It never changes the settings. A valid source stays valid. A block without source assignments keeps the source. A block that does not raise leaves each of source, store and permissive at the value of the block's last assignment to it, or unchanged when the block never assigns it. |
| Configuration.LastAssignedCons | lib/fxer/exchange.rb:54-57 | Reading a block's assignments from the front agrees with taking the last assignment to each setting. |
| Configuration.SingleSetters | lib/fxer/exchange.rb:54-57 | A block with one store, permissive or accepted source assignment performs exactly that setter and raises nothing. |
| Configuration.ApplyAppend | lib/fxer/exchange.rb:54-57 | Running two blocks in turn equals running their concatenation; after a raise nothing more runs. |
| Configuration.RejectedKeyLeavesConfig | lib/fxer/exchange/exchange_configuration.rb:25 | Assigning an invalid key raises and leaves the configuration as it was. |
| Configuration.RejectedKeyStopsBlock | lib/fxer/exchange/exchange_configuration.rb:62-64 | No setter after a rejected key takes effect. |
| Configuration.EcbOnlyMessage | lib/fxer/exchange/exchange_configuration.rb:63 | The valid-key list `[:ecb]` is shown as `[:ecb]`. |
| Exchanges.Current | lib/fxer/exchange.rb:48-50 | `configuration` is the held configuration, or a fresh default one when none is held; either way the exchanger afterwards holds the configuration it returned. |
| Exchanges.Configure | lib/fxer/exchange.rb:54-57 | After `configure` the exchanger holds the block's configuration, even when the block raised part-way. It raises exactly when one of the block's source assignments is invalid. |
| Exchanges.Reset | lib/fxer/exchange.rb:51-53 | After `reset` the exchanger holds the default source. The options it hands on are the default store and permission. |
| Exchanges.NewExchanger | lib/fxer/exchange.rb:40-46 | Construction fails exactly when a truthy `source` option is invalid, and then with the invalid-key error. Otherwise each of source, store and permissive is the option when truthy and the default otherwise. |
| Exchanges.FalsyOptionKeepsDefault | lib/fxer/exchange.rb:44 | `permissive: false` or `nil` in the options leaves the default permission in place. |
| Exchanges.Options | lib/fxer/exchange.rb:95-100 | The options hash has exactly the keys `store` and `permissive`, taken from the held configuration. With none held it fails on `nil.store`. |
| Exchanges.Source | lib/fxer/exchange.rb:106-108 | `source` is the held configuration's key, and fails when none is held. |
| Exchanges.RateSetOf | lib/fxer/exchange.rb:81-82 | The rate set is built by the configured source's provider from the exchanger's options. |
| Exchanges.Lookup | lib/fxer/exchange.rb:82 | A code's currency on the selected day. The lookup succeeds exactly when a rate set is built and selects a day, and a found currency carries the code. |
| Exchanges.ExchangeFor | lib/fxer/exchange.rb:81-82 | The data source answers with the counter's lookup first and the base's lookup second, or the counter lookup's error. |
| Exchanges.Quotient | lib/fxer/exchange.rb:84 | The quotient succeeds exactly when both currencies are present and the base rate is not 0. The result times the base rate is the counter rate. A missing currency fails on `nil.rate`; a zero base rate fails with a division error. |
| Exchanges.ConvertAtDate | lib/fxer/exchange.rb:80-85 | A conversion is the quotient of the counter and base currencies looked up on the same selected day; failing to select a day fails the conversion. |
| Exchanges.QuotientReciprocal | lib/fxer/exchange.rb:84 | Swapping the two currencies of a non-zero quotient inverts it. |
| Exchanges.QuotientChain | lib/fxer/exchange.rb:84 | Quotients through an intermediate currency multiply. |
| Exchanges.ConvertedPair | lib/fxer/exchange.rb:80-85 | Once one conversion on a day succeeds, the conversions among any three codes on that day are the quotients of the same three lookups. |
| Exchanges.ConvertReciprocal | lib/fxer/exchange.rb:80-85 | Converting B to A gives the reciprocal of converting A to B. |
| Exchanges.ConvertIdentity | lib/fxer/exchange.rb:80-85 | A successful conversion of a currency into itself gives exactly 1. |
| Exchanges.ConvertChain | lib/fxer/exchange.rb:80-85 | Converting A to B and then B to C gives the rate of converting A to C. |
| Exchanges.ReadingConfigurationRestoresIt | lib/fxer/exchange.rb:48-50 | After `configuration = nil`, merely reading `configuration` stores the defaults, and conversions then behave as after `reset`. |
| Exchanges.ClearedConfiguration | lib/fxer/exchange.rb:95-100 | With no configuration held, a conversion fails on `nil.store`, while `configure` starts from the defaults. |
| Exchanges.StoredFeedDecides | lib/fxer/exchange.rb:80-85 | With the ECB source and an existing store file, a Date request looks every code up in the converted record of the file's first day with that date. |

## Left out

- `lib/fxer/fetcher.rb` is not part of this model: it downloads and writes feed files and prints, which is I/O only.
- XML-to-hash conversion (`hashify`), `open`/`open-uri`, `File.open` and YAML loading are left out. Feeds arrive already parsed in `Ecb.World`, and the defaults and valid keys in `Configuration.Settings`.
- `Object.const_get` reflection is modelled as a lookup in an explicit registry (`DataSources.Registry`, default `{"Ecb"}`).
- `lib/exchange_rate.rb` is a one-line delegation to `convert_at_date`, and `lib/fxer.rb` only defines path constants. Neither is part of this model.
- `Data#transaction_date=` (lib/fxer/exchange/data.rb:62-64) is left out: it refers to an undefined variable and nothing calls it.
- The writers of `dates`, `to` and `from`, and the `configuration=` writer, are datatype updates and the `Exchanger` constructor. They have no members of their own. `transaction_date` is set only through `at` (`RateSets.At`), because its own writer is the dead method above, which raises `NameError` when called.
- Exchanges.ConvertAtDate: the result is the exact real quotient. The round trip through `Float#to_s`, `BigDecimal` and `Float()` is not modelled, and a zero base rate is reported as a division error instead of Ruby's BigDecimal behaviour.
- Currencies.ToF: this is a simplified `String#to_f`: an optional sign, digits, and an optional dot with digits. Leading whitespace, underscores and exponents are not read, so such texts give a smaller numeric prefix than Ruby would.
- Calendar.Parse: dates are proleptic Gregorian with non-negative years. A signed year, a space-padded field and Ruby's Julian dates before 1582 are not modelled.
- DataSources.ProviderName: case mapping covers ASCII letters only; Ruby's Unicode case mapping is not modelled.
- DateRecords.AssignDate: a value that is neither a Date nor a String is reported as an error instead of being stored. The only writer stores a parsed Date.
- RateSets.LatestIndex: among records that share the latest day, Ruby's `sort_by` order is unspecified. This model takes the last one, so RateSets.NearestDate promises only a latest record.
- Configuration.InspectKeys: renders each key as `:` followed by its name. Ruby's `Symbol#inspect` quotes a name that is not an identifier (`:"foo-bar"`); that quoting is not modelled, so the invalid-key message is exact only for identifier-like keys such as the shipped `ecb`.
- Exchanges.Quotient: Ruby asks `counter_rate.rate` before `base_rate.rate`. Both failures raise the same `NoMethodError`, so the model reports one error in either case.

=== FILE: calendar.dfy ===
/** Calendar dates as used by Ruby's `Date`: formatting with `Date#to_s`
    (`%Y-%m-%d`, year at least four digits) and parsing with
    `Date.strptime(text, "%Y-%m-%d")`, which is also strptime's default format.
 */
module Calendar {
  import opened Text
  import opened Wrappers

  datatype CalDate = CalDate(year: nat, month: nat, day: nat)

  predicate IsLeapYear(y: nat) {
    (y % 4 == 0 && y % 100 != 0) || y % 400 == 0
  }

  function DaysInMonth(y: nat, m: nat): nat
    requires 1 <= m <= 12
  {
    if m == 2 then (if IsLeapYear(y) then 29 else 28)
    else if m == 4 || m == 6 || m == 9 || m == 11 then 30
    else 31
  }

  /** A real day of the (proleptic Gregorian) calendar. */
  predicate IsValid(d: CalDate) {
    1 <= d.month <= 12 && 1 <= d.day <= DaysInMonth(d.year, d.month)
  }

  /** Chronological order, the order `sort_by { |d| d.date }` uses. */
  predicate OnOrBefore(a: CalDate, b: CalDate) {
    a.year < b.year
    || (a.year == b.year && a.month < b.month)
    || (a.year == b.year && a.month == b.month && a.day <= b.day)
  }

  lemma OnOrBeforeTotal(a: CalDate, b: CalDate)
    ensures OnOrBefore(a, b) || OnOrBefore(b, a)
    ensures OnOrBefore(a, b) && OnOrBefore(b, a) ==> a == b
  {
  }

  function YearText(y: nat): (r: string)
    ensures AllDigits(r)
  {
    if y < 10000 then Fixed(y, 4) else Decimal(y)
  }

  /** `Date#to_s`: the zero-padded `YYYY-MM-DD` form. */
  function Format(d: CalDate): string {
    YearText(d.year) + "-" + Fixed(d.month, 2) + "-" + Fixed(d.day, 2)
  }

  /** `Date.strptime(s, "%Y-%m-%d")`: `%Y` reads every digit up to the dash,
      `%m` and `%d` read one or two digits, nothing may be left over, and the
      fields must name a real day. `None` is Ruby's "invalid date" error. */
  function Parse(s: string): (r: Option<CalDate>)
    ensures r.Some? ==> IsValid(r.value)
  {
    var y := LeadingDigits(s);
    if y == 0 || y == |s| || s[y] != '-' then None
    else
      var rest1 := s[y + 1..];
      var m := Min(LeadingDigits(rest1), 2);
      if m == 0 || m == |rest1| || rest1[m] != '-' then None
      else
        var rest2 := rest1[m + 1..];
        var d := Min(LeadingDigits(rest2), 2);
        if d == 0 || d != |rest2| then None
        else
          var date := CalDate(Value(s[..y]), Value(rest1[..m]), Value(rest2[..d]));
          if IsValid(date) then Some(date) else None
  }

  /** The canonical ten-character `YYYY-MM-DD` shape. */
  predicate IsIsoText(s: string) {
    |s| == 10 && s[4] == '-' && s[7] == '-'
    && AllDigits(s[..4]) && AllDigits(s[5..7]) && AllDigits(s[8..])
  }

  /** Parsing the text of a real day gives that day back. */
  lemma ParseFormat(d: CalDate)
    requires IsValid(d)
    ensures Parse(Format(d)) == Some(d)
  {
    var ys, ms, ds := YearText(d.year), Fixed(d.month, 2), Fixed(d.day, 2);
    if d.year < 10000 {
      ValueOfFixed(d.year, 4);
    } else {
      ValueOfDecimal(d.year);
    }
    assert Pow10(2) == 100;
    ValueOfFixed(d.month, 2);
    ValueOfFixed(d.day, 2);
    ParseRuns(ys, ms, ds);
    FormatNested(d);
  }

  /** `Format` with its concatenations grouped from the right. */
  lemma FormatNested(d: CalDate)
    ensures Format(d) == YearText(d.year) + ("-" + (Fixed(d.month, 2) + ("-" + Fixed(d.day, 2))))
  {
  }

  /** A canonical `YYYY-MM-DD` string that parses is exactly the text of the
      parsed day: normalising it and printing it again is the identity. */
  lemma FormatParse(s: string)
    requires IsIsoText(s) && Parse(s).Some?
    ensures Format(Parse(s).value) == s
  {
    var yt, mt, dt := s[..4], s[5..7], s[8..];
    assert s == yt + "-" + mt + "-" + dt;
    assert s == yt + ("-" + mt + "-" + dt);
    LeadingDigitsOfRun(yt, "-" + mt + "-" + dt);
    var rest1 := s[5..];
    assert rest1 == mt + ("-" + dt);
    LeadingDigitsOfRun(mt, "-" + dt);
    var rest2 := rest1[3..];
    assert rest2 == dt;
    assert rest2 == dt + "";
    LeadingDigitsOfRun(dt, "");
    var d := Parse(s).value;
    assert d == CalDate(Value(yt), Value(mt), Value(dt));
    ValueBound(yt);
    assert Pow10(4) == 10000;
    FixedOfValue(yt);
    FixedOfValue(mt);
    FixedOfValue(dt);
  }

  /** Distinct real days have distinct texts, so comparing texts compares days. */
  lemma FormatInjective(a: CalDate, b: CalDate)
    requires IsValid(a) && IsValid(b)
    requires Format(a) == Format(b)
    ensures a == b
  {
    ParseFormat(a);
    ParseFormat(b);
  }

  /** The text of 19 July 2017 is zero-padded. */
  lemma PaddedText()
    ensures Format(CalDate(2017, 7, 19)) == "2017-07-19"
  {
    PaddedFields();
    FormatNested(CalDate(2017, 7, 19));
    assert "2017" + ("-" + ("07" + ("-" + "19"))) == "2017-07-19";
  }

  /** The padded fields of 19 July 2017. */
  lemma PaddedFields()
    ensures YearText(2017) == "2017" && Fixed(7, 2) == "07" && Fixed(19, 2) == "19"
  {
    FixedYear();
    assert Fixed(7, 2) == Fixed(0, 1) + ['7'] && Fixed(0, 1) == "0";
    assert Fixed(19, 2) == Fixed(1, 1) + ['9'] && Fixed(1, 1) == "1";
  }

  lemma FixedYear()
    ensures Fixed(2017, 4) == "2017"
  {
    assert Fixed(2, 1) == "2";
    assert Fixed(20, 2) == Fixed(2, 1) + ['0'];
    assert Fixed(201, 3) == Fixed(20, 2) + ['1'];
    assert Fixed(2017, 4) == Fixed(201, 3) + ['7'];
  }

  /** The digit runs of "2017-7-19" read as 2017, 7 and 19. */
  lemma UnpaddedFieldValues()
    ensures Value("2017") == 2017 && Value("7") == 7 && Value("19") == 19
  {
    assert "2017"[..3] == "201" && "201"[..2] == "20" && "20"[..1] == "2";
    assert "19"[..1] == "1";
  }

  /** strptime's `%Y-%m-%d`: a digit run, a dash, a run of one or two
      digits, a dash and a final run of one or two digits read as the day
      those runs denote, when that day exists. */
  lemma ParseRuns(ys: string, ms: string, ds: string)
    requires |ys| > 0 && AllDigits(ys)
    requires 1 <= |ms| <= 2 && AllDigits(ms)
    requires 1 <= |ds| <= 2 && AllDigits(ds)
    requires IsValid(CalDate(Value(ys), Value(ms), Value(ds)))
    ensures Parse(ys + ("-" + (ms + ("-" + ds)))) == Some(CalDate(Value(ys), Value(ms), Value(ds)))
  {
    var s := ys + ("-" + (ms + ("-" + ds)));
    var rest1 := s[|ys| + 1..];
    var rest2 := rest1[|ms| + 1..];
    assert LeadingDigits(s) == |ys| && s[|ys|] == '-' && s[..|ys|] == ys && rest1 == ms + ("-" + ds) by {
      LeadingDigitsOfRun(ys, "-" + (ms + ("-" + ds)));
    }
    assert Min(LeadingDigits(rest1), 2) == |ms| && rest1[|ms|] == '-' && rest1[..|ms|] == ms by {
      LeadingDigitsOfRun(ms, "-" + ds);
    }
    assert Min(LeadingDigits(rest2), 2) == |ds| == |rest2| && rest2[..|ds|] == ds by {
      assert rest2 == ds + "";
      LeadingDigitsOfRun(ds, "");
    }
  }

  /** strptime also accepts an unpadded month, so this text normalises to
      19 July 2017 although it differs from that day's own text. */
  lemma UnpaddedParse()
    ensures Parse("2017-7-19") == Some(CalDate(2017, 7, 19))
  {
    UnpaddedFieldValues();
    ParseRuns("2017", "7", "19");
    assert "2017" + ("-" + ("7" + ("-" + "19"))) == "2017-7-19";
  }
}

=== FILE: configuration.dfy ===
/** Exchange settings (`Fxer::Exchange::ExchangeConfiguration`): a source key
    checked against a closed set, and an unchecked store and permissive flag.
 */
module Configuration {
  import opened Wrappers
  import opened Text
  import opened RubyValues
  import opened Errors

  const INVALID_SOURCE_MESSAGE := "Please provide one of these valid source keys:"

  /** The externally loaded defaults: default source key, store path and
      permission, and the names of the valid source-key symbols. */
  datatype Settings = Settings(
    defaultSource: RubyValue,
    defaultStore: RubyValue,
    defaultPermission: RubyValue,
    validSourceKeys: seq<string>)

  datatype Config = Config(
    settings: Settings,
    source: RubyValue,
    store: RubyValue,
    permissive: RubyValue)

  /** `ExchangeConfiguration.new`, via `set_defaults`. The default source is
      not validated. */
  function NewConfig(settings: Settings): (c: Config)
    ensures c.settings == settings
    ensures c.source == settings.defaultSource
    ensures c.store == settings.defaultStore
    ensures c.permissive == settings.defaultPermission
  {
    Config(settings, settings.defaultSource, settings.defaultStore, settings.defaultPermission)
  }

  /** `valid_source_keys.include?(key)`: only a listed symbol is valid (a
      String never equals a Symbol). */
  predicate IsValidKey(settings: Settings, key: RubyValue) {
    key.SymVal? && key.name in settings.validSourceKeys
  }

  /** `valid_source_keys.inspect`, e.g. `[:ecb]`. */
  function InspectKeys(keys: seq<string>): string {
    "[" + Join(seq(|keys|, i requires 0 <= i < |keys| => ":" + keys[i]), ", ") + "]"
  }

  function InvalidSourceMessage(settings: Settings): string {
    INVALID_SOURCE_MESSAGE + " " + InspectKeys(settings.validSourceKeys) + "."
  }

  /** `validate_source_key`: the key itself, or an error listing the valid keys. */
  function ValidateSourceKey(settings: Settings, key: RubyValue): (r: Result<RubyValue, Error>)
    ensures r.Ok? <==> IsValidKey(settings, key)
    ensures r.Ok? ==> r.value == key
    ensures r.Err? ==> r.error == InvalidSourceKey(InvalidSourceMessage(settings))
  {
    if IsValidKey(settings, key) then Ok(key) else Err(InvalidSourceKey(InvalidSourceMessage(settings)))
  }

  /** `source = key`: validation runs before the assignment, so a rejected key
      leaves the configuration as it was. */
  function SetSource(c: Config, key: RubyValue): (r: Result<Config, Error>)
    ensures r.Ok? <==> IsValidKey(c.settings, key)
    ensures r.Ok? ==> r.value.source == key && r.value.(source := c.source) == c
    ensures r.Err? ==> r.error == InvalidSourceKey(InvalidSourceMessage(c.settings))
  {
    var k :- ValidateSourceKey(c.settings, key);
    Ok(c.(source := k))
  }

  /** `store = v`: any value is accepted. */
  function SetStore(c: Config, v: RubyValue): (r: Config)
    ensures r.store == v && r.(store := c.store) == c
  {
    c.(store := v)
  }

  /** `permissive = v`: any value is accepted. */
  function SetPermissive(c: Config, v: RubyValue): (r: Config)
    ensures r.permissive == v && r.(permissive := c.permissive) == c
  {
    c.(permissive := v)
  }

  /** One setter call inside a configuration block. */
  datatype Assignment =
    | AssignSource(key: RubyValue)
    | AssignStore(path: RubyValue)
    | AssignPermissive(flag: RubyValue)

  predicate Accepted(settings: Settings, a: Assignment) {
    a.AssignSource? ==> IsValidKey(settings, a.key)
  }

  /** The setting an assignment writes. */
  datatype Field = SourceField | StoreField | PermissiveField

  function FieldOf(a: Assignment): Field {
    match a
    case AssignSource(_) => SourceField
    case AssignStore(_) => StoreField
    case AssignPermissive(_) => PermissiveField
  }

  function ValueOf(a: Assignment): RubyValue {
    match a
    case AssignSource(k) => k
    case AssignStore(p) => p
    case AssignPermissive(f) => f
  }

  /** The value the last assignment to `f` in `block` writes, or `dflt` when
      the block never assigns `f`. Read from the end of the block, so it is
      independent of the order `Apply` runs the setters in. */
  function LastAssigned(block: seq<Assignment>, f: Field, dflt: RubyValue): RubyValue
    decreases |block|
  {
    if |block| == 0 then dflt
    else if FieldOf(block[|block| - 1]) == f then ValueOf(block[|block| - 1])
    else LastAssigned(block[..|block| - 1], f, dflt)
  }

  /** Reading a block from the front: its first assignment only provides the
      value that later assignments to the same setting override. */
  lemma {:induction false} LastAssignedCons(a: Assignment, rest: seq<Assignment>, f: Field, dflt: RubyValue)
    ensures LastAssigned([a] + rest, f, dflt)
            == LastAssigned(rest, f, if FieldOf(a) == f then ValueOf(a) else dflt)
    decreases |rest|
  {
    var s := [a] + rest;
    if |rest| == 0 {
      assert s == [a];
      assert s[..|s| - 1] == [];
    } else {
      assert s[|s| - 1] == rest[|rest| - 1];
      assert s[..|s| - 1] == [a] + rest[..|rest| - 1];
      LastAssignedCons(a, rest[..|rest| - 1], f, dflt);
    }
  }

  /** The configuration after a block ran, and what it raised, if anything. */
  datatype Outcome = Outcome(config: Config, raised: Option<Error>)

  /** Runs the setters of a block in order. A rejected source key raises and
      stops the block; the setters that ran before it keep their effect. */
  function Apply(c: Config, block: seq<Assignment>): (r: Outcome)
    ensures r.config.settings == c.settings
    ensures r.raised.None? <==> forall i :: 0 <= i < |block| ==> Accepted(c.settings, block[i])
    ensures r.raised.Some? ==> r.raised.value == InvalidSourceKey(InvalidSourceMessage(c.settings))
    ensures IsValidKey(c.settings, c.source) ==> IsValidKey(c.settings, r.config.source)
    ensures (forall i :: 0 <= i < |block| ==> !block[i].AssignSource?) ==> r.config.source == c.source
    ensures r.raised.None? ==>
              r.config == c.(source := LastAssigned(block, SourceField, c.source),
                             store := LastAssigned(block, StoreField, c.store),
                             permissive := LastAssigned(block, PermissiveField, c.permissive))
    decreases |block|
  {
    if |block| == 0 then Outcome(c, None)
    else
      var step :=
        match block[0]
        case AssignSource(k) => SetSource(c, k)
        case AssignStore(v) => Ok(SetStore(c, v))
        case AssignPermissive(v) => Ok(SetPermissive(c, v));
      if step.Err? then Outcome(c, Some(step.error))
      else
        var rest := Apply(step.value, block[1..]);
        assert forall i :: 1 <= i < |block| ==> block[i] == block[1..][i - 1];
        assert block == [block[0]] + block[1..];
        LastAssignedCons(block[0], block[1..], SourceField, c.source);
        LastAssignedCons(block[0], block[1..], StoreField, c.store);
        LastAssignedCons(block[0], block[1..], PermissiveField, c.permissive);
        rest
  }

  /** Running two blocks one after the other is running their concatenation,
      except that nothing of the second runs once the first has raised. */
  lemma {:induction false} ApplyAppend(c: Config, a: seq<Assignment>, b: seq<Assignment>)
    ensures Apply(c, a + b)
            == (if Apply(c, a).raised.Some? then Apply(c, a) else Apply(Apply(c, a).config, b))
    decreases |a|
  {
    if |a| == 0 {
      assert a + b == b;
    } else {
      assert (a + b)[0] == a[0];
      assert (a + b)[1..] == a[1..] + b;
      var step :=
        match a[0]
        case AssignSource(k) => SetSource(c, k)
        case AssignStore(v) => Ok(SetStore(c, v))
        case AssignPermissive(v) => Ok(SetPermissive(c, v));
      if step.Ok? {
        ApplyAppend(step.value, a[1..], b);
      }
    }
  }

  /** A one-setter block performs exactly that setter. */
  lemma SingleSetters(c: Config, v: RubyValue)
    ensures Apply(c, [AssignStore(v)]) == Outcome(SetStore(c, v), None)
    ensures Apply(c, [AssignPermissive(v)]) == Outcome(SetPermissive(c, v), None)
    ensures IsValidKey(c.settings, v) ==> Apply(c, [AssignSource(v)]) == Outcome(SetSource(c, v).value, None)
  {
  }

  /** A block whose only setter names an invalid key raises and changes nothing. */
  lemma RejectedKeyLeavesConfig(c: Config, key: RubyValue)
    requires !IsValidKey(c.settings, key)
    ensures Apply(c, [AssignSource(key)]) == Outcome(c, Some(InvalidSourceKey(InvalidSourceMessage(c.settings))))
  {
  }

  /** A rejected key stops the block: later setters do not run. */
  lemma RejectedKeyStopsBlock(c: Config, key: RubyValue, rest: seq<Assignment>)
    requires !IsValidKey(c.settings, key)
    ensures Apply(c, [AssignSource(key)] + rest).config == c
  {
    assert ([AssignSource(key)] + rest)[0] == AssignSource(key);
  }

  /** The source-key check lists the valid keys as Ruby inspects them. */
  lemma EcbOnlyMessage()
    ensures InspectKeys(["ecb"]) == "[:ecb]"
  {
  }
}

=== FILE: currency.dfy ===
/** One currency's rate on one day (`Fxer::Exchange::Data::Date::Currency`),
    and the text-to-number coercion its `rate=` setter applies.
 */
module Currencies {
  import opened Text
  import opened RubyValues

  /** `key` is kept verbatim; `rate` is units of this currency per euro. */
  datatype Currency = Currency(key: RubyValue, rate: real)

  /** Number of fraction digits at the head of `t`: a dot followed by at
      least one digit; zero when `t` does not start that way. */
  function FractionDigits(t: string): (n: nat)
    ensures n > 0 ==> n + 1 <= |t| && t[0] == '.' && AllDigits(t[1..n + 1])
  {
    if |t| >= 2 && t[0] == '.' && IsDigit(t[1]) then
      var n := LeadingDigits(t[1..]);
      assert t[1..][..n] == t[1..n + 1];
      n
    else 0
  }

  function Fraction(t: string): (f: real)
    ensures 0.0 <= f
  {
    var n := FractionDigits(t);
    if n == 0 then 0.0 else Value(t[1..n + 1]) as real / Pow10(n) as real
  }

  /** `String#to_f`, simplified: an optional sign, digits, and an optional dot
      with digits; a text with no numeric prefix is 0. It never fails. */
  function ToF(s: string): (r: real)
    ensures (forall i :: 0 <= i < |s| ==> !IsDigit(s[i])) ==> r == 0.0
    ensures (|s| == 0 || s[0] != '-') ==> r >= 0.0
  {
    var signed := |s| > 0 && (s[0] == '-' || s[0] == '+');
    var body := if signed then s[1..] else s;
    var ip := LeadingDigits(body);
    var magnitude := Value(body[..ip]) as real + Fraction(body[ip..]);
    assert ip > 0 ==> IsDigit(body[0]);
    if |s| > 0 && s[0] == '-' then -magnitude else magnitude
  }

  /** `rate=`: the number that `"#{raw}".to_f` reads. */
  function CoerceRate(raw: RubyValue): (r: real)
    ensures raw.NilVal? ==> r == 0.0
  {
    ToF(Render(raw))
  }

  /** An integer's text reads back as that integer; in particular the
      synthesised euro's rate 1 is stored as 1. */
  lemma CoerceIntegerRate(n: int)
    ensures CoerceRate(IntVal(n)) == n as real
  {
    var m: nat := if n < 0 then -n else n;
    var digits := Decimal(m);
    LeadingDigitsOfRun(digits, "");
    assert digits + "" == digits;
    assert digits[..|digits|] == digits;
    ValueOfDecimal(m);
    if n < 0 {
      assert ("-" + digits)[1..] == digits;
    }
  }

  /** A feed rate written as `<integer>.<k fraction digits>` reads as that
      exact decimal number. */
  lemma CoerceDecimalRate(whole: nat, frac: nat, k: nat)
    requires 1 <= k && frac < Pow10(k)
    ensures CoerceRate(StrVal(Decimal(whole) + "." + Fixed(frac, k)))
            == whole as real + frac as real / Pow10(k) as real
  {
    var w, f := Decimal(whole), Fixed(frac, k);
    var s := w + "." + f;
    assert s == w + ("." + f);
    LeadingDigitsOfRun(w, "." + f);
    assert s[..|w|] == w;
    assert s[|w|..] == "." + f;
    assert s[0] == w[0];
    ToFUnsigned(s);
    FractionOfDigits(f);
    ValueOfDecimal(whole);
    ValueOfFixed(frac, k);
  }

  /** Text that starts with a digit reads as its integer part plus its fraction. */
  lemma ToFUnsigned(s: string)
    requires |s| > 0 && IsDigit(s[0])
    ensures ToF(s) == Value(s[..LeadingDigits(s)]) as real + Fraction(s[LeadingDigits(s)..])
  {
  }

  /** A dot followed by a run of digits reads as that run over its power of ten. */
  lemma FractionOfDigits(f: string)
    requires |f| >= 1 && AllDigits(f)
    ensures Fraction("." + f) == Value(f) as real / Pow10(|f|) as real
  {
    var t := "." + f;
    assert t[1..] == f + "";
    LeadingDigitsOfRun(f, "");
    assert FractionDigits(t) == |f|;
    assert t[1..|f| + 1] == f;
  }
}

=== FILE: data_source.dfy ===
/** Provider selection (`Fxer::Exchange::DataSource`): a source key names a
    provider, the provider builds a rate set, and the rate set answers one
    (date, base, counter) question.
 */
module DataSources {
  import opened Wrappers
  import opened Text
  import opened RubyValues
  import opened Errors
  import opened Currencies
  import opened RateSets
  import Ecb

  /** The provider implementations that exist. */
  datatype Provider = EcbProvider

  /** Provider classes by class name; stands for `Object.const_get` under
      `Fxer::Exchange::DataSource`. */
  type Registry = map<string, Provider>

  function DefaultRegistry(): Registry {
    map["Ecb" := EcbProvider]
  }

  /** `DataSource.new(opts)`: only remembers the options. */
  datatype DataSource = DataSource(options: Hash)

  /** `"#{source}".downcase.capitalize`. */
  function ProviderName(source: RubyValue): (name: string)
    ensures |name| == |Render(source)|
    ensures |name| > 0 ==> name[0] == UpperChar(LowerChar(Render(source)[0]))
    ensures forall i :: 0 < i < |name| ==> name[i] == LowerChar(Render(source)[i])
  {
    Capitalize(Downcase(Render(source)))
  }

  /** Every casing of a key, as a symbol or a string, selects the same
      provider. */
  lemma ProviderNameIgnoresCase(a: string, b: string)
    requires SameIgnoringCase(a, b)
    ensures ProviderName(SymVal(a)) == ProviderName(SymVal(b))
    ensures ProviderName(StrVal(a)) == ProviderName(SymVal(b))
  {
  }

  /** In particular, the upper-cased key selects the provider of the key. */
  lemma UpcasedKeySelectsSameProvider(name: string)
    ensures ProviderName(SymVal(Upcase(name))) == ProviderName(SymVal(name))
  {
    DowncaseOfUpcase(name);
    ProviderNameIgnoresCase(Upcase(name), name);
  }

  /** The configured `:ecb` key names the ECB provider class. */
  lemma EcbKeyNamesEcb()
    ensures ProviderName(SymVal("ecb")) == "Ecb"
    ensures ProviderName(SymVal("ECB")) == "Ecb"
  {
  }

  /** The provider for a source key; an unregistered name raises. */
  function Resolve(registry: Registry, source: RubyValue): (r: Result<Provider, Error>)
    ensures r.Ok? <==> ProviderName(source) in registry
    ensures r.Ok? ==> r.value == registry[ProviderName(source)]
    ensures r.Err? ==> r.error == UnknownSourceProvider(ProviderName(source))
  {
    var name := ProviderName(source);
    if name in registry then Ok(registry[name]) else Err(UnknownSourceProvider(name))
  }

  /** `Provider.new(opts).rate_set`. */
  function Produce(p: Provider, opts: Hash, world: Ecb.World): Result<RateSet, Error> {
    match p
    case EcbProvider => Ecb.Build(opts, world)
  }

  /** `fetch_rates(source)`: the rate set of the named provider, built from
      this data source's options. */
  function FetchRates(ds: DataSource, registry: Registry, world: Ecb.World, source: RubyValue)
    : (r: Result<RateSet, Error>)
    ensures Resolve(registry, source).Err? ==> r == Err(Resolve(registry, source).error)
    ensures r.Ok? ==> Resolve(registry, source).Ok?
    ensures r.Ok? ==> r.value.options == ds.options - {"store"}
    ensures r.Ok? ==> Fetch(r.value.options, "permissive") == Fetch(ds.options, "permissive")
    ensures Resolve(registry, source).Ok? ==> r == Produce(Resolve(registry, source).value, ds.options, world)
    ensures Resolve(registry, source) == Ok(EcbProvider) ==> r == Ecb.Build(ds.options, world)
  {
    var p :- Resolve(registry, source);
    Produce(p, ds.options, world)
  }

  /** `exchange(date, base, counter, source)`: the base code goes to `from`,
      the counter code to `to`, and the answer is `[counter, base]`. */
  function Exchange(ds: DataSource, registry: Registry, world: Ecb.World,
                    date: RubyValue, base: RubyValue, counter: RubyValue, source: RubyValue)
    : (r: Result<(Option<Currency>, Option<Currency>), Error>)
    ensures FetchRates(ds, registry, world, source).Err? ==>
              r == Err(FetchRates(ds, registry, world, source).error)
    ensures FetchRates(ds, registry, world, source).Ok? ==>
              var rs := FetchRates(ds, registry, world, source).value;
              r == Rates(rs.(transactionDate := date, from := base, to := counter))
  {
    var rs :- FetchRates(ds, registry, world, source);
    Rates(To(From(At(rs, date), base), counter))
  }
}

=== FILE: date_record.dfy ===
/** One calendar day's rates (`Fxer::Exchange::Data::Date`) and the date
    normalisation its `date=` setter applies.
 */
module DateRecords {
  import opened Wrappers
  import opened Calendar
  import opened RubyValues
  import opened Errors
  import opened Currencies

  datatype DateRecord = DateRecord(date: CalDate, currencies: seq<Currency>)

  /** `Date.normalize_date`: a String is parsed into a Date (an invalid text
      raises); any other value is returned unchanged. */
  function NormalizeDate(raw: RubyValue): (r: Result<RubyValue, Error>)
    ensures !raw.StrVal? ==> r == Ok(raw)
    ensures raw.StrVal? ==> (r.Ok? <==> Parse(raw.s).Some?)
    ensures raw.StrVal? && r.Ok? ==> r.value.DateVal? && Parse(raw.s) == Some(r.value.date)
    ensures r.Err? ==> r.error == InvalidDate
  {
    match raw
    case StrVal(s) =>
      (match Parse(s)
       case Some(d) => Ok(DateVal(d))
       case None => Err(InvalidDate))
    case _ => Ok(raw)
  }

  /** Normalising an already normalised value changes nothing. */
  lemma NormalizeIdempotent(raw: RubyValue)
    requires NormalizeDate(raw).Ok?
    ensures NormalizeDate(NormalizeDate(raw).value) == NormalizeDate(raw)
  {
  }

  /** A canonical `YYYY-MM-DD` text that normalises renders back as itself. */
  lemma NormalizeIsoText(s: string)
    requires IsIsoText(s) && NormalizeDate(StrVal(s)).Ok?
    ensures Render(NormalizeDate(StrVal(s)).value) == s
  {
    FormatParse(s);
  }

  /** `Date.new` followed by `date = raw`: a fresh record holds the normalised
      date and no currencies yet. */
  function AssignDate(raw: RubyValue): (r: Result<DateRecord, Error>)
    ensures r.Ok? ==> r.value.currencies == []
    ensures r.Ok? ==> NormalizeDate(raw) == Ok(DateVal(r.value.date))
    ensures NormalizeDate(raw).Err? ==> r == Err(NormalizeDate(raw).error)
    ensures raw.DateVal? ==> r.Ok?
  {
    var normalised :- NormalizeDate(raw);
    match normalised
    case DateVal(d) => Ok(DateRecord(d, []))
    case _ => Err(NotADate)
  }
}

=== FILE: ecb.dfy ===
/** The European Central Bank provider (`Fxer::Exchange::DataSource::Ecb`):
    where its feed comes from, and how the parsed feed becomes a rate set.
 */
module Ecb {
  import opened Wrappers
  import opened Calendar
  import opened RubyValues
  import opened Errors
  import opened Currencies
  import opened DateRecords
  import opened RateSets

  /** One `<Cube currency=".." rate=".."/>` item, as text. */
  datatype RawRate = RawRate(currency: string, rate: string)

  /** One `<Cube time="..">` day of the feed with its rate items. */
  datatype FeedEntry = FeedEntry(time: string, cube: seq<RawRate>)

  type Feed = seq<FeedEntry>

  /** What the provider can see outside itself: readable files by path (each
      already converted from XML), and the remote feed if it can be fetched. */
  datatype World = World(files: map<string, Feed>, remote: Option<Feed>)

  /** `european_currency`: the euro, which the feed omits, at rate 1. */
  function EuropeanCurrency(): (c: Currency)
    ensures c.key == StrVal("EUR") && c.rate == 1.0
  {
    CoerceIntegerRate(1);
    Currency(StrVal("EUR"), CoerceRate(IntVal(1)))
  }

  /** One feed item as a currency: key verbatim, rate coerced from text. */
  function ConvertRate(raw: RawRate): Currency {
    Currency(StrVal(raw.currency), CoerceRate(StrVal(raw.rate)))
  }

  /** The currencies of one day: every item in order, then the euro. */
  predicate IsDayOf(rec: DateRecord, e: FeedEntry) {
    && Parse(e.time) == Some(rec.date)
    && |rec.currencies| == |e.cube| + 1
    && (forall k :: 0 <= k < |e.cube| ==> rec.currencies[k] == ConvertRate(e.cube[k]))
    && rec.currencies[|e.cube|] == EuropeanCurrency()
  }

  /** One iteration of `normalize_rates`: parse the day, map its items, append
      the euro. An unparsable day raises. */
  function ConvertEntry(e: FeedEntry): (r: Result<DateRecord, Error>)
    ensures r.Ok? <==> Parse(e.time).Some?
    ensures r.Ok? ==> IsDayOf(r.value, e)
    ensures r.Err? ==> r.error == InvalidDate
  {
    var day :- match Parse(e.time)
               case Some(d) => Ok(d)
               case None => Err(InvalidDate);
    var rec := AssignDate(DateVal(day)).value;
    Ok(rec.(currencies := seq(|e.cube|, k requires 0 <= k < |e.cube| => ConvertRate(e.cube[k]))
                          + [EuropeanCurrency()]))
  }

  predicate AllDaysParse(feed: Feed) {
    forall i :: 0 <= i < |feed| ==> Parse(feed[i].time).Some?
  }

  /** Day `i` is the first of the feed whose time does not parse. */
  predicate IsFirstBadDay(feed: Feed, i: nat) {
    i < |feed| && Parse(feed[i].time).None?
    && forall j :: 0 <= j < i ==> Parse(feed[j].time).Some?
  }

  /** The loop of `normalize_rates`: one record per feed day, in feed order;
      the first unparsable day stops the loop. */
  function ConvertEntries(feed: Feed): (r: Result<seq<DateRecord>, Error>)
    ensures r.Ok? <==> AllDaysParse(feed)
    ensures r.Ok? ==> |r.value| == |feed| && forall i :: 0 <= i < |feed| ==> ConvertEntry(feed[i]) == Ok(r.value[i])
    ensures r.Err? ==> r.error == InvalidDate && exists i: nat :: IsFirstBadDay(feed, i)
  {
    if |feed| == 0 then Ok([])
    else
      var first := ConvertEntry(feed[0]);
      if first.Err? then
        assert IsFirstBadDay(feed, 0);
        Err(first.error)
      else
        var rest := ConvertEntries(feed[1..]);
        if rest.Err? then
          var i: nat :| IsFirstBadDay(feed[1..], i);
          ShiftBadDay(feed, i);
          Err(rest.error)
        else
          ConsDays(feed, first.value, rest.value);
          Ok([first.value] + rest.value)
  }

  lemma ShiftBadDay(feed: Feed, i: nat)
    requires |feed| > 0 && Parse(feed[0].time).Some? && IsFirstBadDay(feed[1..], i)
    ensures IsFirstBadDay(feed, i + 1) && feed[i + 1] == feed[1..][i]
  {
    forall j | 0 <= j < i + 1 ensures Parse(feed[j].time).Some? {
      if j > 0 {
        assert feed[j] == feed[1..][j - 1];
      }
    }
  }

  lemma ConsDays(feed: Feed, head: DateRecord, tail: seq<DateRecord>)
    requires |feed| > 0 && ConvertEntry(feed[0]) == Ok(head)
    requires AllDaysParse(feed[1..]) && |tail| == |feed| - 1
    requires forall i :: 0 <= i < |tail| ==> ConvertEntry(feed[1..][i]) == Ok(tail[i])
    ensures AllDaysParse(feed)
    ensures forall i :: 0 <= i < |feed| ==> ConvertEntry(feed[i]) == Ok(([head] + tail)[i])
  {
    var all := [head] + tail;
    forall i | 0 <= i < |feed| ensures ConvertEntry(feed[i]) == Ok(all[i]) {
      if i > 0 {
        assert feed[1..][i - 1] == feed[i];
        assert all[i] == tail[i - 1];
      }
    }
    forall i | 0 <= i < |feed| ensures Parse(feed[i].time).Some? {
      assert ConvertEntry(feed[i]).Ok?;
    }
  }

  /** `normalize_rates`: a fresh rate set holding the given options and one
      record per feed day. */
  function NormalizeRates(options: Hash, feed: Feed): (r: Result<RateSet, Error>)
    ensures r.Ok? <==> AllDaysParse(feed)
    ensures r.Ok? ==> r.value.options == options && |r.value.dates| == |feed|
    ensures r.Ok? ==> forall i :: 0 <= i < |feed| ==> IsDayOf(r.value.dates[i], feed[i])
    ensures r.Ok? ==> r.value.transactionDate == NilVal && r.value.to == NilVal && r.value.from == NilVal
  {
    var dates :- ConvertEntries(feed);
    Ok(NewRateSet(options).(dates := dates))
  }

  /** A Date request on a normalised set matches, first, the first feed day
      whose time parses to that date. */
  lemma NormalizedFirstMatch(options: Hash, feed: Feed, d: CalDate, i: nat)
    requires NormalizeRates(options, feed).Ok?
    requires i < |feed| && Parse(feed[i].time) == Some(d)
    requires forall j :: 0 <= j < i ==> Parse(feed[j].time) != Some(d)
    ensures IsFirstMatch(NormalizeRates(options, feed).value.dates, Render(DateVal(d)), i)
    ensures ConvertEntry(feed[i]) == Ok(NormalizeRates(options, feed).value.dates[i])
  {
    var dates := NormalizeRates(options, feed).value.dates;
    assert ConvertEntries(feed) == Ok(dates);
    forall j | 0 <= j <= i
      ensures MatchesDate(dates[j], Render(DateVal(d))) <==> Parse(feed[j].time) == Some(d)
    {
      assert IsDayOf(dates[j], feed[j]);
      DateRequestMatchesItsDay(dates[j], d);
    }
  }

  /** Every record of a normalised set has one currency per feed item plus a
      last one, the euro at rate exactly 1. */
  lemma EveryDayEndsWithEuro(options: Hash, feed: Feed, i: nat)
    requires NormalizeRates(options, feed).Ok? && i < |feed|
    ensures var rec := NormalizeRates(options, feed).value.dates[i];
            |rec.currencies| == |feed[i].cube| + 1
            && rec.currencies[|rec.currencies| - 1].key == StrVal("EUR")
            && rec.currencies[|rec.currencies| - 1].rate == 1.0
  {
  }

  /** When the feed itself lists no euro, looking the euro up in any record of
      the set finds the synthesised one, at rate 1. */
  lemma EuroAlwaysFound(options: Hash, feed: Feed, i: nat)
    requires NormalizeRates(options, feed).Ok? && i < |feed|
    requires forall k :: 0 <= k < |feed[i].cube| ==> feed[i].cube[k].currency != "EUR"
    ensures FindCurrency(NormalizeRates(options, feed).value.dates[i].currencies, StrVal("EUR"))
            == Some(EuropeanCurrency())
  {
    var cs := NormalizeRates(options, feed).value.dates[i].currencies;
    assert IsDayOf(NormalizeRates(options, feed).value.dates[i], feed[i]);
    var found := FindCurrency(cs, StrVal("EUR"));
    assert cs[|feed[i].cube|].key == StrVal("EUR");
    var j: nat :| IsFirstKey(cs, StrVal("EUR"), j) && found.value == cs[j];
  }

  /** `local_data`: the stored feed when a store is given and exists; `false`
      (here `None`) when no store is given or the path does not exist. A store
      that is not a path makes `File.exists?` raise. */
  function LocalData(store: RubyValue, world: World): (r: Result<Option<Feed>, Error>)
    ensures !Truthy(store) ==> r == Ok(None)
    ensures Truthy(store) && !store.StrVal? ==> r == Err(StoreNotAPath)
    ensures r.Ok? && r.value.Some? <==> store.StrVal? && store.s in world.files
    ensures r.Ok? && r.value.Some? ==> r.value.value == world.files[store.s]
    ensures store.StrVal? && store.s !in world.files ==> r == Ok(None)
    ensures r.Err? <==> Truthy(store) && !store.StrVal?
  {
    if !Truthy(store) then Ok(None)
    else
      match store
      case StrVal(path) => Ok(if path in world.files then Some(world.files[path]) else None)
      case _ => Err(StoreNotAPath)
  }

  /** Local data is used exactly when a store path is given and exists. */
  predicate UsesLocal(store: RubyValue, world: World) {
    store.StrVal? && store.s in world.files
  }

  /** `fetch_rates`: local data if available, otherwise the remote feed. */
  function FetchRates(store: RubyValue, world: World): (r: Result<Feed, Error>)
    ensures UsesLocal(store, world) ==> r == Ok(world.files[store.s])
    ensures (!Truthy(store) || (store.StrVal? && !UsesLocal(store, world))) ==>
              r == (if world.remote.Some? then Ok(world.remote.value) else Err(DataUnavailable))
    ensures Truthy(store) && !store.StrVal? ==> r == Err(StoreNotAPath)
  {
    var local :- LocalData(store, world);
    match local
    case Some(feed) => Ok(feed)
    case None =>
      match world.remote
      case Some(feed) => Ok(feed)
      case None => Err(DataUnavailable)
  }

  /** `Ecb.new(opts).rate_set`: the store is taken out of the options, the
      rest (so `:permissive`) is handed to the rate set unchanged. */
  function Build(opts: Hash, world: World): (r: Result<RateSet, Error>)
    ensures r.Ok? ==> r.value.options == opts - {"store"}
    ensures r.Ok? ==> Fetch(r.value.options, "permissive") == Fetch(opts, "permissive")
    ensures FetchRates(Fetch(opts, "store"), world).Err? ==>
              r == Err(FetchRates(Fetch(opts, "store"), world).error)
    ensures FetchRates(Fetch(opts, "store"), world).Ok? ==>
              (r.Ok? <==> AllDaysParse(FetchRates(Fetch(opts, "store"), world).value))
    ensures FetchRates(Fetch(opts, "store"), world).Ok? ==>
              r == NormalizeRates(opts - {"store"}, FetchRates(Fetch(opts, "store"), world).value)
  {
    var store := Fetch(opts, "store");
    var feed :- FetchRates(store, world);
    NormalizeRates(opts - {"store"}, feed)
  }
}

=== FILE: errors.dfy ===
/** The failures the engine raises, one constructor per Ruby exception site. */
module Errors {

  datatype Error =
      /** RuntimeError from `validate_source_key`; carries the message. */
    | InvalidSourceKey(message: string)
      /** NameError from `Object.const_get` for an unregistered provider name. */
    | UnknownSourceProvider(name: string)
      /** The remote feed could not be obtained. */
    | DataUnavailable
      /** TypeError from `File.exists?` given a store that is not a path. */
    | StoreNotAPath
      /** ArgumentError "invalid date" from `Date.strptime`; Ruby's message
          names no text, so neither does the model. */
    | InvalidDate
      /** A value that is neither a String nor a Date assigned as a record's date. */
    | NotADate
      /** RuntimeError from `nearest_date`; carries the message. */
    | DateNotFound(message: string)
      /** NoMethodError: `selector` sent to `nil`. */
    | NilReceiver(selector: string)
      /** Division by a zero base rate. */
    | ZeroDivision
}

=== FILE: exchange.dfy ===
/** The public entry point (`Fxer::Exchange`): an exchanger owns a
    configuration and answers "how many counter units per base unit on
    this day".
 */
module Exchanges {
  import opened Wrappers
  import opened Calendar
  import opened RubyValues
  import opened Errors
  import opened Currencies
  import opened DateRecords
  import opened RateSets
  import opened Configuration
  import DataSources
  import Ecb

  /** `@configuration`; the attribute writer `configuration = c` is the
      constructor itself, and may leave it `nil`. */
  datatype Exchanger = Exchanger(configuration: Option<Config>)

  /** `configuration`: the current configuration, or a fresh default one
      when none is held. The reader memoises (`@configuration ||=
      ExchangeConfiguration.new`), so the exchanger afterwards holds what was
      returned. */
  function Current(ex: Exchanger, settings: Settings): (r: (Exchanger, Config))
    ensures r.0.configuration == Some(r.1)
    ensures ex.configuration.Some? ==> r.0 == ex
    ensures ex.configuration.None? ==> r.1 == NewConfig(settings)
  {
    match ex.configuration
    case Some(c) => (ex, c)
    case None => (Exchanger(Some(NewConfig(settings))), NewConfig(settings))
  }

  /** `configure { ... }`: runs the block against the current configuration,
      which the exchanger holds from then on, even when the block raised
      part-way. */
  function Configure(ex: Exchanger, settings: Settings, block: seq<Assignment>)
    : (r: (Exchanger, Option<Error>))
    ensures r.0.configuration.Some?
    ensures r.0.configuration.value.settings == Current(ex, settings).1.settings
    ensures r.1.None? <==> forall i :: 0 <= i < |block| ==> Accepted(Current(ex, settings).1.settings, block[i])
    ensures r == (Exchanger(Some(Apply(Current(ex, settings).1, block).config)),
                  Apply(Current(ex, settings).1, block).raised)
  {
    var outcome := Apply(Current(ex, settings).1, block);
    (Exchanger(Some(outcome.config)), outcome.raised)
  }

  /** `reset`: back to the defaults, whatever was configured before; the
      options a conversion then uses are the default store and permission. */
  function Reset(ex: Exchanger, settings: Settings): (r: Exchanger)
    ensures r.configuration.Some? && r.configuration.value.source == settings.defaultSource
    ensures Options(r) == Ok(map["store" := settings.defaultStore,
                                 "permissive" := settings.defaultPermission])
  {
    Exchanger(Some(NewConfig(settings)))
  }

  /** The setter runs `initialize` performs for one option: only a truthy
      value is assigned. */
  function SourcePart(opts: Hash): seq<Assignment> {
    if Truthy(Fetch(opts, "source")) then [AssignSource(Fetch(opts, "source"))] else []
  }

  function StorePart(opts: Hash): seq<Assignment> {
    if Truthy(Fetch(opts, "store")) then [AssignStore(Fetch(opts, "store"))] else []
  }

  function PermissivePart(opts: Hash): seq<Assignment> {
    if Truthy(Fetch(opts, "permissive")) then [AssignPermissive(Fetch(opts, "permissive"))] else []
  }

  /** The value an option leaves in the configuration: the option when it is
      truthy, otherwise the default. */
  function Chosen(opts: Hash, key: string, default: RubyValue): RubyValue {
    if Truthy(Fetch(opts, key)) then Fetch(opts, key) else default
  }

  /** `Exchange.new(opts)`: a default configuration overridden by each truthy
      option, source first; an invalid source key makes construction raise. */
  function NewExchanger(settings: Settings, opts: Hash): (r: Result<Exchanger, Error>)
    ensures r.Ok? <==> (!Truthy(Fetch(opts, "source")) || IsValidKey(settings, Fetch(opts, "source")))
    ensures r.Ok? ==> r.value.configuration.Some?
    ensures r.Ok? ==>
              var c := r.value.configuration.value;
              && c.settings == settings
              && c.source == Chosen(opts, "source", settings.defaultSource)
              && c.store == Chosen(opts, "store", settings.defaultStore)
              && c.permissive == Chosen(opts, "permissive", settings.defaultPermission)
    ensures r.Err? ==> r.error == InvalidSourceKey(InvalidSourceMessage(settings))
  {
    var c0 := NewConfig(settings);
    var s1, s2, s3 := SourcePart(opts), StorePart(opts), PermissivePart(opts);
    ApplyAppend(c0, s1, s2);
    ApplyAppend(c0, s1 + s2, s3);
    assert s1 + s2 + s3 == (s1 + s2) + s3;
    var (ex, raised) := Configure(Exchanger(None), settings, s1 + s2 + s3);
    if raised.Some? then Err(raised.value) else Ok(ex)
  }

  /** `options`: the hash handed to the data source. It reads the held
      configuration directly, so with none held it fails on `nil.store`. */
  function Options(ex: Exchanger): (r: Result<Hash, Error>)
    ensures ex.configuration.None? <==> r.Err?
    ensures r.Err? ==> r.error == NilReceiver("store")
    ensures r.Ok? ==>
              && r.value.Keys == {"store", "permissive"}
              && Fetch(r.value, "store") == ex.configuration.value.store
              && Fetch(r.value, "permissive") == ex.configuration.value.permissive
  {
    match ex.configuration
    case None => Err(NilReceiver("store"))
    case Some(c) => Ok(map["store" := c.store, "permissive" := c.permissive])
  }

  /** `source`: the held configuration's source key. */
  function Source(ex: Exchanger): (r: Result<RubyValue, Error>)
    ensures ex.configuration.None? ==> r == Err(NilReceiver("source"))
    ensures ex.configuration.Some? ==> r == Ok(ex.configuration.value.source)
  {
    match ex.configuration
    case None => Err(NilReceiver("source"))
    case Some(c) => Ok(c.source)
  }

  /** The rate set the configured source yields for the held options. */
  function RateSetOf(ex: Exchanger, registry: DataSources.Registry, world: Ecb.World)
    : (r: Result<RateSet, Error>)
    ensures ex.configuration.None? ==> r == Err(NilReceiver("store"))
    ensures ex.configuration.Some? ==>
              r == DataSources.FetchRates(DataSources.DataSource(Options(ex).value), registry, world,
                                          ex.configuration.value.source)
  {
    var opts :- Options(ex);
    DataSources.FetchRates(DataSources.DataSource(opts), registry, world, ex.configuration.value.source)
  }

  /** The configured source yields a rate set, and it selects a day for `date`. */
  predicate DayFound(ex: Exchanger, registry: DataSources.Registry, world: Ecb.World, date: RubyValue) {
    RateSetOf(ex, registry, world).Ok? && DaySelected(RateSetOf(ex, registry, world).value.(transactionDate := date))
  }

  /** The currency with the given code on the day selected for `date`. */
  function Lookup(ex: Exchanger, registry: DataSources.Registry, world: Ecb.World,
                  date: RubyValue, code: RubyValue): (r: Result<Option<Currency>, Error>)
    ensures RateSetOf(ex, registry, world).Err? ==> r == Err(RateSetOf(ex, registry, world).error)
    ensures RateSetOf(ex, registry, world).Ok? ==>
              r == DayCurrency(RateSetOf(ex, registry, world).value.(transactionDate := date), code)
    ensures r.Ok? <==> DayFound(ex, registry, world, date)
    ensures r.Ok? && r.value.Some? ==> r.value.value.key == code
  {
    var rs :- RateSetOf(ex, registry, world);
    DayCurrency(rs.(transactionDate := date), code)
  }

  /** The first two lines of `convert_at_date`: `[counter, base]` from the
      configured source, for the given day. */
  function ExchangeFor(ex: Exchanger, registry: DataSources.Registry, world: Ecb.World,
                       date: RubyValue, base: RubyValue, counter: RubyValue)
    : (r: Result<(Option<Currency>, Option<Currency>), Error>)
    ensures Lookup(ex, registry, world, date, counter).Err? ==>
              r == Err(Lookup(ex, registry, world, date, counter).error)
    ensures Lookup(ex, registry, world, date, counter).Ok? ==>
              r == Ok((Lookup(ex, registry, world, date, counter).value,
                       Lookup(ex, registry, world, date, base).value))
  {
    var opts :- Options(ex);
    var src := ex.configuration.value.source;
    var rs := DataSources.FetchRates(DataSources.DataSource(opts), registry, world, src);
    assert rs.Ok? ==>
             var day := rs.value.(transactionDate := date);
             && DayCurrency(day.(from := base, to := counter), counter) == DayCurrency(day, counter)
             && DayCurrency(day.(from := base, to := counter), base) == DayCurrency(day, base) by {
      if rs.Ok? {
        var day := rs.value.(transactionDate := date);
        DayIgnoresPair(day, base, counter, counter);
        DayIgnoresPair(day, base, counter, base);
      }
    }
    DataSources.Exchange(DataSources.DataSource(opts), registry, world, date, base, counter, src)
  }

  /** The last line of `convert_at_date`: counter rate over base rate. A
      missing currency fails on `nil.rate`, the counter being asked first. */
  function Quotient(counter: Option<Currency>, base: Option<Currency>): (r: Result<real, Error>)
    ensures r.Ok? <==> counter.Some? && base.Some? && base.value.rate != 0.0
    ensures r.Ok? ==> r.value * base.value.rate == counter.value.rate
    ensures counter.None? ==> r == Err(NilReceiver("rate"))
    ensures counter.Some? && base.None? ==> r == Err(NilReceiver("rate"))
    ensures counter.Some? && base.Some? && base.value.rate == 0.0 ==> r == Err(ZeroDivision)
  {
    match (counter, base)
    case (None, _) => Err(NilReceiver("rate"))
    case (Some(_), None) => Err(NilReceiver("rate"))
    case (Some(c), Some(b)) => if b.rate == 0.0 then Err(ZeroDivision) else Ok(c.rate / b.rate)
  }

  /** `convert_at_date(date, base, counter)`: how many counter units one base
      unit buys on the selected day. */
  function ConvertAtDate(ex: Exchanger, registry: DataSources.Registry, world: Ecb.World,
                         date: RubyValue, base: RubyValue, counter: RubyValue)
    : (r: Result<real, Error>)
    ensures !DayFound(ex, registry, world, date) ==>
              r == Err(Lookup(ex, registry, world, date, counter).error)
    ensures DayFound(ex, registry, world, date) ==>
              r == Quotient(Lookup(ex, registry, world, date, counter).value,
                            Lookup(ex, registry, world, date, base).value)
  {
    var pair :- ExchangeFor(ex, registry, world, date, base, counter);
    Quotient(pair.0, pair.1)
  }

  /** Swapping the two currencies of a quotient inverts it. */
  lemma QuotientReciprocal(c: Option<Currency>, b: Option<Currency>, q: real)
    requires Quotient(c, b) == Ok(q) && q != 0.0
    ensures Quotient(b, c) == Ok(1.0 / q)
  {
    var rb, rc := b.value.rate, c.value.rate;
    assert q * rb == rc;
    assert rc != 0.0;
    assert rb / rc == 1.0 / q by {
      assert rb / rc * q == rb / rc * rc / rb;
    }
  }

  /** Quotients through an intermediate currency multiply. */
  lemma QuotientChain(a: Option<Currency>, b: Option<Currency>, c: Option<Currency>, x: real, y: real)
    requires Quotient(b, a) == Ok(x) && Quotient(c, b) == Ok(y)
    ensures Quotient(c, a) == Ok(x * y)
  {
    var ra, rb, rc := a.value.rate, b.value.rate, c.value.rate;
    assert x * ra == rb && y * rb == rc && ra != 0.0;
    assert (x * y) * ra == rc;
    assert rc / ra == x * y;
  }

  /** Once one conversion on a day succeeds, every conversion on that day is
      the quotient of the looked-up currencies. */
  lemma ConvertedPair(ex: Exchanger, registry: DataSources.Registry, world: Ecb.World,
                      date: RubyValue, a: RubyValue, b: RubyValue, c: RubyValue)
    returns (la: Option<Currency>, lb: Option<Currency>, lc: Option<Currency>)
    requires ConvertAtDate(ex, registry, world, date, a, b).Ok?
    ensures ConvertAtDate(ex, registry, world, date, a, b) == Quotient(lb, la)
    ensures ConvertAtDate(ex, registry, world, date, b, c) == Quotient(lc, lb)
    ensures ConvertAtDate(ex, registry, world, date, a, c) == Quotient(lc, la)
  {
    la := Lookup(ex, registry, world, date, a).value;
    lb := Lookup(ex, registry, world, date, b).value;
    lc := Lookup(ex, registry, world, date, c).value;
  }

  /** Converting with base and counter swapped gives the reciprocal rate. */
  lemma ConvertReciprocal(ex: Exchanger, registry: DataSources.Registry, world: Ecb.World,
                          date: RubyValue, a: RubyValue, b: RubyValue, q: real)
    requires ConvertAtDate(ex, registry, world, date, a, b) == Ok(q)
    requires q != 0.0
    ensures ConvertAtDate(ex, registry, world, date, b, a) == Ok(1.0 / q)
  {
    var la, lb := Lookup(ex, registry, world, date, a).value, Lookup(ex, registry, world, date, b).value;
    assert Quotient(lb, la) == Ok(q);
    QuotientReciprocal(lb, la, q);
  }

  /** Converting a currency into itself gives exactly 1. */
  lemma ConvertIdentity(ex: Exchanger, registry: DataSources.Registry, world: Ecb.World,
                        date: RubyValue, a: RubyValue)
    requires ConvertAtDate(ex, registry, world, date, a, a).Ok?
    ensures ConvertAtDate(ex, registry, world, date, a, a) == Ok(1.0)
  {
  }

  /** Rates on one day are consistent: going through an intermediate currency
      gives the direct rate. */
  lemma ConvertChain(ex: Exchanger, registry: DataSources.Registry, world: Ecb.World,
                     date: RubyValue, a: RubyValue, b: RubyValue, c: RubyValue, x: real, y: real)
    requires ConvertAtDate(ex, registry, world, date, a, b) == Ok(x)
    requires ConvertAtDate(ex, registry, world, date, b, c) == Ok(y)
    ensures ConvertAtDate(ex, registry, world, date, a, c) == Ok(x * y)
  {
    var la, lb, lc := ConvertedPair(ex, registry, world, date, a, b, c);
    QuotientChain(la, lb, lc, x, y);
  }

  /** A false or nil option leaves the default in place; in particular
      `permissive: false` cannot switch off a permissive default. */
  lemma FalsyOptionKeepsDefault(settings: Settings, opts: Hash)
    requires !Truthy(Fetch(opts, "source")) || IsValidKey(settings, Fetch(opts, "source"))
    requires Fetch(opts, "permissive") == BoolVal(false) || Fetch(opts, "permissive") == NilVal
    ensures NewExchanger(settings, opts).Ok?
    ensures NewExchanger(settings, opts).value.configuration.value.permissive == settings.defaultPermission
  {
  }

  /** After `configuration = nil` a conversion fails on the missing
      configuration, but `configure` starts again from the defaults. */
  lemma ClearedConfiguration(ex: Exchanger, settings: Settings, registry: DataSources.Registry,
                             world: Ecb.World, date: RubyValue, base: RubyValue, counter: RubyValue)
    ensures ConvertAtDate(Exchanger(None), registry, world, date, base, counter)
            == Err(NilReceiver("store"))
    ensures Configure(Exchanger(None), settings, []).0 == Reset(ex, settings)
  {
  }

  /** Merely reading `configuration` after `configuration = nil` stores a
      default one, after which a conversion behaves as after `reset`. */
  lemma ReadingConfigurationRestoresIt(settings: Settings, registry: DataSources.Registry,
                                       world: Ecb.World, date: RubyValue, base: RubyValue, counter: RubyValue)
    ensures Current(Exchanger(None), settings).0 == Reset(Exchanger(None), settings)
    ensures Options(Current(Exchanger(None), settings).0).Ok?
    ensures ConvertAtDate(Current(Exchanger(None), settings).0, registry, world, date, base, counter)
            == ConvertAtDate(Reset(Exchanger(None), settings), registry, world, date, base, counter)
  {
  }

  /** When the source is the ECB provider and the store names a readable file,
      a Date request reads that file's first day whose time is that date, and
      every code is looked up among that day's currencies. */
  lemma StoredFeedDecides(ex: Exchanger, registry: DataSources.Registry, world: Ecb.World,
                          d: CalDate, code: RubyValue, i: nat)
    requires ex.configuration.Some?
    requires DataSources.Resolve(registry, ex.configuration.value.source) == Ok(DataSources.EcbProvider)
    requires Ecb.UsesLocal(ex.configuration.value.store, world)
    requires var feed := world.files[ex.configuration.value.store.s];
             && Ecb.AllDaysParse(feed) && i < |feed| && Parse(feed[i].time) == Some(d)
             && forall j :: 0 <= j < i ==> Parse(feed[j].time) != Some(d)
    ensures var day := Ecb.ConvertEntry(world.files[ex.configuration.value.store.s][i]).value;
            Lookup(ex, registry, world, DateVal(d), code) == Ok(FindCurrency(day.currencies, code))
  {
    var c := ex.configuration.value;
    var feed := world.files[c.store.s];
    var opts := Options(ex).value;
    assert Fetch(opts, "store") == c.store;
    var rs := RateSetOf(ex, registry, world).value;
    assert rs == Ecb.NormalizeRates(opts - {"store"}, feed).value;
    Ecb.NormalizedFirstMatch(opts - {"store"}, feed, d, i);
    FirstMatchSelected(rs.(transactionDate := DateVal(d)), i);
  }
}

=== FILE: rate_set.dfy ===
/** The rate set (`Fxer::Exchange::Data`): every day of one feed, the chosen
    transaction date and currency pair, date selection and pair lookup.
 */
module RateSets {
  import opened Wrappers
  import opened Calendar
  import opened RubyValues
  import opened Errors
  import opened Currencies
  import opened DateRecords

  const DATE_ERROR_MESSAGE := "Unable to find your date:"

  /** `options` is the hash the provider passed in; `to` is the counter code
      and `from` the base code. */
  datatype RateSet = RateSet(
    options: Hash,
    dates: seq<DateRecord>,
    transactionDate: RubyValue,
    to: RubyValue,
    from: RubyValue)

  /** `Data.new(opts)`: no days yet, nothing chosen (unset instance
      variables read as `nil`). */
  function NewRateSet(options: Hash): (r: RateSet)
    ensures r.options == options && r.dates == []
    ensures r.transactionDate == NilVal && r.from == NilVal && r.to == NilVal
  {
    RateSet(options, [], NilVal, NilVal, NilVal)
  }

  /** `at(d)`: sets the transaction date, as given (no normalisation). */
  function At(rs: RateSet, d: RubyValue): (r: RateSet)
    ensures r.transactionDate == d
    ensures r.(transactionDate := rs.transactionDate) == rs
  {
    rs.(transactionDate := d)
  }

  /** `from(f)`: sets the base code. */
  function From(rs: RateSet, f: RubyValue): (r: RateSet)
    ensures r.from == f
    ensures r.(from := rs.from) == rs
  {
    rs.(from := f)
  }

  /** `to(t)`: sets the counter code. */
  function To(rs: RateSet, t: RubyValue): (r: RateSet)
    ensures r.to == t
    ensures r.(to := rs.to) == rs
  {
    rs.(to := t)
  }

  predicate Permissive(rs: RateSet) {
    Truthy(Fetch(rs.options, "permissive"))
  }

  /** A record matches a request when their texts are equal. */
  predicate MatchesDate(rec: DateRecord, key: string) {
    Render(DateVal(rec.date)) == key
  }

  predicate HasMatch(dates: seq<DateRecord>, key: string) {
    exists j :: 0 <= j < |dates| && MatchesDate(dates[j], key)
  }

  predicate IsFirstMatch(dates: seq<DateRecord>, key: string, i: nat) {
    i < |dates| && MatchesDate(dates[i], key)
    && forall j :: 0 <= j < i ==> !MatchesDate(dates[j], key)
  }

  /** The first position of `s` satisfying `p` (`Enumerable#find`, as a
      position). */
  function FirstIndex<T>(s: seq<T>, p: T -> bool): (r: Option<nat>)
    ensures r.Some? ==> r.value < |s| && p(s[r.value]) && forall j :: 0 <= j < r.value ==> !p(s[j])
    ensures r.None? <==> forall j :: 0 <= j < |s| ==> !p(s[j])
  {
    if |s| == 0 then None
    else if p(s[0]) then Some(0)
    else
      var rest := FirstIndex(s[1..], p);
      assert forall j :: 1 <= j < |s| ==> s[j] == s[1..][j - 1];
      match rest
      case None => None
      case Some(i) => Some(i + 1)
  }

  /** `dates.find { |d| "#{d.date}" == key }`, as a position. */
  function FirstDateMatch(dates: seq<DateRecord>, key: string): (r: Option<nat>)
    ensures r.Some? ==> IsFirstMatch(dates, key, r.value)
    ensures r.None? <==> !HasMatch(dates, key)
  {
    FirstIndex(dates, (rec: DateRecord) => MatchesDate(rec, key))
  }

  /** Position `i` holds a record no other record is later than. */
  predicate IsLatest(dates: seq<DateRecord>, i: nat) {
    i < |dates| && forall j :: 0 <= j < |dates| ==> OnOrBefore(dates[j].date, dates[i].date)
  }

  /** `dates.sort_by { |d| d.date }.reverse.first`, as a position. Among
      records sharing the latest date the source's choice is unspecified;
      this one takes the last. */
  function LatestIndex(dates: seq<DateRecord>): (i: nat)
    requires |dates| > 0
    ensures IsLatest(dates, i)
  {
    if |dates| == 1 then 0
    else
      var k := LatestIndex(dates[..|dates| - 1]);
      var last := |dates| - 1;
      if OnOrBefore(dates[k].date, dates[last].date) then last else k
  }

  function DateErrorMessage(d: RubyValue): string {
    DATE_ERROR_MESSAGE + " " + Render(d)
  }

  /** `nearest_date`: the first record whose text equals the request's text;
      failing that, an error unless permissive; failing that, the latest
      record of the whole set (`None` for an empty set). */
  function NearestDate(rs: RateSet): (r: Result<Option<DateRecord>, Error>)
    ensures HasMatch(rs.dates, Render(rs.transactionDate)) ==>
              r.Ok? && r.value.Some?
              && exists i: nat :: IsFirstMatch(rs.dates, Render(rs.transactionDate), i) && r.value.value == rs.dates[i]
    ensures !HasMatch(rs.dates, Render(rs.transactionDate)) && !Permissive(rs) ==>
              r == Err(DateNotFound(DateErrorMessage(rs.transactionDate)))
    ensures !HasMatch(rs.dates, Render(rs.transactionDate)) && Permissive(rs) && |rs.dates| == 0 ==>
              r == Ok(None)
    ensures !HasMatch(rs.dates, Render(rs.transactionDate)) && Permissive(rs) && |rs.dates| > 0 ==>
              r.Ok? && r.value.Some?
              && exists i: nat :: IsLatest(rs.dates, i) && r.value.value == rs.dates[i]
  {
    match FirstDateMatch(rs.dates, Render(rs.transactionDate))
    case Some(i) => Ok(Some(rs.dates[i]))
    case None =>
      if !Permissive(rs) then Err(DateNotFound(DateErrorMessage(rs.transactionDate)))
      else if |rs.dates| == 0 then Ok(None)
      else Ok(Some(rs.dates[LatestIndex(rs.dates)]))
  }

  predicate IsFirstKey(cs: seq<Currency>, key: RubyValue, i: nat) {
    i < |cs| && cs[i].key == key && forall j :: 0 <= j < i ==> cs[j].key != key
  }

  /** `currencies.find { |d| d.key == key }`: the first currency with that
      key, or `nil`. */
  function FindCurrency(cs: seq<Currency>, key: RubyValue): (r: Option<Currency>)
    ensures r.Some? ==> r.value.key == key
    ensures r.Some? ==> exists i: nat :: IsFirstKey(cs, key, i) && r.value == cs[i]
    ensures r.None? <==> forall j :: 0 <= j < |cs| ==> cs[j].key != key
  {
    if |cs| == 0 then None
    else if cs[0].key == key then Some(cs[0])
    else
      var rest := FindCurrency(cs[1..], key);
      assert rest.Some? ==> exists i: nat :: IsFirstKey(cs, key, i) && rest.value == cs[i] by {
        if rest.Some? {
          var i: nat :| IsFirstKey(cs[1..], key, i) && rest.value == cs[1..][i];
          assert forall j :: 1 <= j < |cs| ==> cs[j] == cs[1..][j - 1];
          assert IsFirstKey(cs, key, i + 1);
        }
      }
      rest
  }

  /** `nearest_date` picks a record (rather than raising or finding none). */
  predicate DaySelected(rs: RateSet) {
    NearestDate(rs).Ok? && NearestDate(rs).value.Some?
  }

  /** The currency with the given code on the day `nearest_date` selects;
      with no day selected (permissive, empty set) it fails on
      `nil.currencies`. */
  function DayCurrency(rs: RateSet, code: RubyValue): (r: Result<Option<Currency>, Error>)
    ensures NearestDate(rs).Err? ==> r == Err(NearestDate(rs).error)
    ensures NearestDate(rs) == Ok(None) ==> r == Err(NilReceiver("currencies"))
    ensures NearestDate(rs).Ok? && NearestDate(rs).value.Some? ==>
              r == Ok(FindCurrency(NearestDate(rs).value.value.currencies, code))
    ensures r.Ok? <==> DaySelected(rs)
    ensures r.Ok? && r.value.Some? ==> r.value.value.key == code
  {
    var chosen :- NearestDate(rs);
    match chosen
    case None => Err(NilReceiver("currencies"))
    case Some(rec) => Ok(FindCurrency(rec.currencies, code))
  }

  /** `rates`: the pair `[counter, base]`, both looked up on the same
      selected day; a missing code is `nil` in its place. */
  function Rates(rs: RateSet): (r: Result<(Option<Currency>, Option<Currency>), Error>)
    ensures DayCurrency(rs, rs.to).Err? ==> r == Err(DayCurrency(rs, rs.to).error)
    ensures DayCurrency(rs, rs.to).Ok? ==>
              r == Ok((DayCurrency(rs, rs.to).value, DayCurrency(rs, rs.from).value))
  {
    var chosen :- NearestDate(rs);
    match chosen
    case None => Err(NilReceiver("currencies"))
    case Some(rec) => Ok((FindCurrency(rec.currencies, rs.to), FindCurrency(rec.currencies, rs.from)))
  }

  /** The selected day depends on the request date and the data, never on
      the currency pair. */
  lemma DayIgnoresPair(rs: RateSet, base: RubyValue, counter: RubyValue, code: RubyValue)
    ensures DayCurrency(rs.(from := base, to := counter), code) == DayCurrency(rs, code)
  {
    assert NearestDate(rs.(from := base, to := counter)) == NearestDate(rs);
  }

  /** The first record matching the request is the one selected. */
  lemma FirstMatchSelected(rs: RateSet, i: nat)
    requires IsFirstMatch(rs.dates, Render(rs.transactionDate), i)
    ensures NearestDate(rs) == Ok(Some(rs.dates[i]))
  {
    var key := Render(rs.transactionDate);
    assert HasMatch(rs.dates, key);
    var k := FirstDateMatch(rs.dates, key).value;
    assert k == i;
    assert NearestDate(rs) == Ok(Some(rs.dates[k]));
  }

  /** With an exact match the permissive flag plays no part. */
  lemma ExactMatchIgnoresPermissive(rs: RateSet, options: Hash)
    requires HasMatch(rs.dates, Render(rs.transactionDate))
    ensures NearestDate(rs.(options := options)) == NearestDate(rs)
  {
  }

  /** Without a match, the permissive fallback does not depend on the request. */
  lemma FallbackIgnoresRequest(rs: RateSet, d1: RubyValue, d2: RubyValue)
    requires Permissive(rs)
    requires !HasMatch(rs.dates, Render(d1)) && !HasMatch(rs.dates, Render(d2))
    ensures NearestDate(At(rs, d1)) == NearestDate(At(rs, d2))
  {
  }

  /** When no two records share a day, the latest record is unique. */
  lemma LatestUnique(dates: seq<DateRecord>, i: nat, j: nat)
    requires forall a, b :: 0 <= a < b < |dates| ==> dates[a].date != dates[b].date
    requires IsLatest(dates, i) && IsLatest(dates, j)
    ensures i == j
  {
    OnOrBeforeTotal(dates[i].date, dates[j].date);
  }

  /** A Date request matches exactly the records of that day. */
  lemma DateRequestMatchesItsDay(rec: DateRecord, d: CalDate)
    requires IsValid(rec.date) && IsValid(d)
    ensures MatchesDate(rec, Render(DateVal(d))) <==> rec.date == d
  {
    if MatchesDate(rec, Render(DateVal(d))) {
      FormatInjective(rec.date, d);
    }
  }

  /** Three days of data: 19 and 21 July, and 31 August 2017. */
  function SummerDays(c1: seq<Currency>, c2: seq<Currency>, c3: seq<Currency>): seq<DateRecord> {
    [DateRecord(CalDate(2017, 7, 19), c1), DateRecord(CalDate(2017, 7, 21), c2),
     DateRecord(CalDate(2017, 8, 31), c3)]
  }

  /** 20 July 2017 is none of the three days. */
  lemma NoSummerMatch(c1: seq<Currency>, c2: seq<Currency>, c3: seq<Currency>)
    ensures !HasMatch(SummerDays(c1, c2, c3), Render(DateVal(CalDate(2017, 7, 20))))
  {
    var dates := SummerDays(c1, c2, c3);
    var d := CalDate(2017, 7, 20);
    forall j | 0 <= j < |dates| ensures !MatchesDate(dates[j], Render(DateVal(d))) {
      DateRequestMatchesItsDay(dates[j], d);
    }
  }

  /** A day between two recorded days is not found: a permissive set answers
      with the latest day of all (31 August), not the nearest (19 or 21 July). */
  lemma PermissiveFallsBackToLatest(options: Hash, c1: seq<Currency>, c2: seq<Currency>,
                                    c3: seq<Currency>, to: RubyValue, from: RubyValue)
    requires Truthy(Fetch(options, "permissive"))
    ensures NearestDate(RateSet(options, SummerDays(c1, c2, c3), DateVal(CalDate(2017, 7, 20)), to, from))
            == Ok(Some(DateRecord(CalDate(2017, 8, 31), c3)))
  {
    var dates := SummerDays(c1, c2, c3);
    var rs := RateSet(options, dates, DateVal(CalDate(2017, 7, 20)), to, from);
    NoSummerMatch(c1, c2, c3);
    MissSelectsLatest(rs);
    SummerLatest(c1, c2, c3);
  }

  /** 31 August is the latest of the three days. */
  lemma SummerLatest(c1: seq<Currency>, c2: seq<Currency>, c3: seq<Currency>)
    ensures LatestIndex(SummerDays(c1, c2, c3)) == 2
  {
    var dates := SummerDays(c1, c2, c3);
    var k := LatestIndex(dates);
    assert OnOrBefore(dates[2].date, dates[k].date);
  }

  /** A permissive miss on a non-empty set selects the latest record. */
  lemma MissSelectsLatest(rs: RateSet)
    requires !HasMatch(rs.dates, Render(rs.transactionDate)) && Permissive(rs) && |rs.dates| > 0
    ensures NearestDate(rs) == Ok(Some(rs.dates[LatestIndex(rs.dates)]))
  {
  }

  /** The same request without the permissive flag raises. */
  lemma StrictMissRaises(options: Hash, c1: seq<Currency>, c2: seq<Currency>,
                         c3: seq<Currency>, to: RubyValue, from: RubyValue)
    requires !Truthy(Fetch(options, "permissive"))
    ensures NearestDate(RateSet(options, SummerDays(c1, c2, c3), DateVal(CalDate(2017, 7, 20)), to, from))
            == Err(DateNotFound(DateErrorMessage(DateVal(CalDate(2017, 7, 20)))))
  {
    NoSummerMatch(c1, c2, c3);
  }

  /** A String request is compared as text: the padded text finds its day,
      the unpadded text of the same day finds nothing. */
  lemma TextRequestNeedsPadding(rec: DateRecord)
    requires rec.date == CalDate(2017, 7, 19)
    ensures MatchesDate(rec, Render(StrVal("2017-07-19")))
    ensures !MatchesDate(rec, Render(StrVal("2017-7-19")))
  {
    PaddedText();
    assert |"2017-7-19"| != |"2017-07-19"|;
  }
}

=== FILE: ruby_values.dfy ===
/** The Ruby values that flow through the rate-resolution engine untyped:
    transaction dates, currency codes, option values and source keys.
 */
module RubyValues {
  import opened Text
  import opened Calendar

  datatype RubyValue =
    | NilVal
    | BoolVal(b: bool)
    | IntVal(i: int)
    | StrVal(s: string)
    | SymVal(name: string)
    | DateVal(date: CalDate)

  /** Ruby truthiness: everything except `nil` and `false`. */
  predicate Truthy(v: RubyValue) {
    !(v.NilVal? || v == BoolVal(false))
  }

  /** String interpolation `"#{v}"`, that is `v.to_s`. */
  function Render(v: RubyValue): string {
    match v
    case NilVal => ""
    case BoolVal(b) => if b then "true" else "false"
    case IntVal(i) => if i < 0 then "-" + Decimal(-i) else Decimal(i)
    case StrVal(s) => s
    case SymVal(name) => name
    case DateVal(d) => Format(d)
  }

  /** An options hash keyed by symbols (the symbol's name stands for it). */
  type Hash = map<string, RubyValue>

  /** `hash[key]`: a missing key reads as `nil`. */
  function Fetch(h: Hash, key: string): (v: RubyValue)
    ensures key !in h ==> v == NilVal
    ensures key in h ==> v == h[key]
  {
    if key in h then h[key] else NilVal
  }

  /** Rendering a day and rendering its canonical text agree, so a string
      request matches a dated record without being parsed first. */
  lemma RenderIsoText(s: string)
    requires IsIsoText(s) && Parse(s).Some?
    ensures Render(StrVal(s)) == Render(DateVal(Parse(s).value))
  {
    FormatParse(s);
  }
}

=== FILE: text.dfy ===
/** Character-level helpers shared by the date parser, the rate parser and the
    provider-name mapping: decimal digit strings and ASCII case mapping.
 */
module Text {

  predicate IsDigit(c: char) {
    '0' <= c <= '9'
  }

  predicate AllDigits(s: string) {
    forall i :: 0 <= i < |s| ==> IsDigit(s[i])
  }

  function DigitValue(c: char): (d: nat)
    requires IsDigit(c)
    ensures d < 10
  {
    c as int - '0' as int
  }

  function DigitChar(d: nat): (c: char)
    requires d < 10
    ensures IsDigit(c) && DigitValue(c) == d
  {
    ('0' as int + d) as char
  }

  function Pow10(k: nat): (p: nat)
    ensures p >= 1
  {
    if k == 0 then 1 else 10 * Pow10(k - 1)
  }

  function Min(a: nat, b: nat): nat {
    if a <= b then a else b
  }

  /** The number a string of decimal digits denotes, most significant first. */
  function Value(s: string): nat
    requires AllDigits(s)
  {
    if |s| == 0 then 0 else Value(s[..|s| - 1]) * 10 + DigitValue(s[|s| - 1])
  }

  /** `n` written with exactly `width` digits: zero-padded on the left, and
      reduced modulo 10^width when it does not fit (like `%0Nd` on a value in range). */
  function Fixed(n: nat, width: nat): (r: string)
    ensures |r| == width && AllDigits(r)
  {
    if width == 0 then "" else Fixed(n / 10, width - 1) + [DigitChar(n % 10)]
  }

  /** `n` in decimal without leading zeros (Ruby's Integer#to_s for n >= 0). */
  function Decimal(n: nat): (r: string)
    ensures |r| >= 1 && AllDigits(r)
  {
    if n < 10 then [DigitChar(n)] else Decimal(n / 10) + [DigitChar(n % 10)]
  }

  /** Length of the longest prefix of `s` made of digits. */
  function LeadingDigits(s: string): (n: nat)
    ensures n <= |s|
    ensures AllDigits(s[..n])
    ensures n < |s| ==> !IsDigit(s[n])
  {
    if |s| == 0 || !IsDigit(s[0]) then 0
    else
      var k := LeadingDigits(s[1..]);
      assert s[..k + 1] == [s[0]] + s[1..][..k];
      k + 1
  }

  lemma {:induction false} ValueBound(s: string)
    requires AllDigits(s)
    ensures Value(s) < Pow10(|s|)
  {
    if |s| > 0 {
      ValueBound(s[..|s| - 1]);
    }
  }

  /** Reading back a fixed-width rendering gives the number, when it fits. */
  lemma {:induction false} ValueOfFixed(n: nat, width: nat)
    requires n < Pow10(width)
    ensures Value(Fixed(n, width)) == n
  {
    if width > 0 {
      var f := Fixed(n, width);
      ValueOfFixed(n / 10, width - 1);
      assert f[..|f| - 1] == Fixed(n / 10, width - 1);
    }
  }

  /** Rendering the value of a digit string at its own width gives the string back:
      leading zeros are preserved. */
  lemma {:induction false} FixedOfValue(s: string)
    requires AllDigits(s)
    ensures Fixed(Value(s), |s|) == s
  {
    if |s| > 0 {
      var init := s[..|s| - 1];
      FixedOfValue(init);
      var v := Value(s);
      assert v / 10 == Value(init);
      assert v % 10 == DigitValue(s[|s| - 1]);
      assert DigitChar(DigitValue(s[|s| - 1])) == s[|s| - 1];
      assert s == init + [s[|s| - 1]];
    }
  }

  lemma {:induction false} ValueOfDecimal(n: nat)
    ensures Value(Decimal(n)) == n
  {
    if n >= 10 {
      var r := Decimal(n);
      ValueOfDecimal(n / 10);
      assert r[..|r| - 1] == Decimal(n / 10);
    }
  }

  /** A digit run followed by a non-digit: the leading digits are exactly the run. */
  lemma {:induction false} LeadingDigitsOfRun(a: string, b: string)
    requires AllDigits(a)
    requires |b| == 0 || !IsDigit(b[0])
    ensures LeadingDigits(a + b) == |a|
  {
    if |a| > 0 {
      assert (a + b)[1..] == a[1..] + b;
      LeadingDigitsOfRun(a[1..], b);
    }
  }

  // ASCII case mapping (Ruby's downcase/upcase/capitalize restricted to ASCII).

  function LowerChar(c: char): char {
    if 'A' <= c <= 'Z' then (c as int + 32) as char else c
  }

  function UpperChar(c: char): char {
    if 'a' <= c <= 'z' then (c as int - 32) as char else c
  }

  function Downcase(s: string): (r: string)
    ensures |r| == |s|
    ensures forall i :: 0 <= i < |s| ==> r[i] == LowerChar(s[i])
  {
    seq(|s|, i requires 0 <= i < |s| => LowerChar(s[i]))
  }

  function Upcase(s: string): (r: string)
    ensures |r| == |s|
    ensures forall i :: 0 <= i < |s| ==> r[i] == UpperChar(s[i])
  {
    seq(|s|, i requires 0 <= i < |s| => UpperChar(s[i]))
  }

  /** Ruby's String#capitalize: first character upper case, the rest lower case. */
  function Capitalize(s: string): (r: string)
    ensures |r| == |s|
    ensures |s| > 0 ==> r[0] == UpperChar(s[0])
    ensures forall i :: 0 < i < |s| ==> r[i] == LowerChar(s[i])
  {
    if |s| == 0 then "" else [UpperChar(s[0])] + Downcase(s[1..])
  }

  /** Two strings that agree up to ASCII case. */
  predicate SameIgnoringCase(a: string, b: string) {
    Downcase(a) == Downcase(b)
  }

  /** Upper-casing never changes what a string downcases to. */
  lemma DowncaseOfUpcase(s: string)
    ensures Downcase(Upcase(s)) == Downcase(s)
  {
    assert forall i :: 0 <= i < |s| ==> LowerChar(UpperChar(s[i])) == LowerChar(s[i]);
  }

  /** Joins `parts` with `sep` between consecutive elements (Ruby's Array#join). */
  function Join(parts: seq<string>, sep: string): (r: string)
    ensures |parts| == 1 ==> r == parts[0]
  {
    if |parts| == 0 then ""
    else if |parts| == 1 then parts[0]
    else parts[0] + sep + Join(parts[1..], sep)
  }
}

=== FILE: wrappers.dfy ===
/** Failure-carrying wrappers used throughout the model.

    Ruby signals failures by raising; the model returns `Err` instead, and
    `nil` results become `None`.
 */
module Wrappers {

  datatype Option<+T> = None | Some(value: T)

  datatype Result<+T, +E> = Ok(value: T) | Err(error: E) {

    predicate IsFailure() {
      Err?
    }

    function PropagateFailure<U>(): Result<U, E>
      requires Err?
    {
      Err(error)
    }

    function Extract(): T
      requires Ok?
    {
      value
    }
  }
}
